=== FILE: README.md ===
# Logsene for Android: delivery pipeline model

A Dafny model of the delivery pipeline of the Logsene Android logging library.
Applications hand it log events. It enriches them, persists them in an SQLite-backed
FIFO queue, and ships them in bulk requests to a Logsene (Elasticsearch-style `_bulk`)
receiver. The library has two generations, and both are modelled:

- the thread-based agent (`com.sematext.android.Logsene` with its `LogWorker`
  appender thread);
- the WorkManager-based agent (`com.sematext.logseneandroid.Logsene` with its
  `LogWorker` worker).

| file | module | models |
|---|---|---|
| `wrappers.dfy` | `Wrappers` | `Option`, `Result` and the exceptions the code throws (`Fault`) |
| `text.dfy` | `Text` | `String.trim()`, `endsWith("/")`, newline framing of a body and reading it back |
| `queue.dfy` | `ObjectQueue` | `SqliteObjectQueue`: rows in id order, the size cache, `add` with one-row eviction, `peek`, `remove` |
| `bulk.dfy` | `Bulk` | `Bulk` and `Bulk.Builder`: the bulk body, one directive line and one trimmed document per entry |
| `client.dfy` | `Client` | `LogseneClient`: receiver URL normalisation and the `/_bulk` endpoint |
| `worker.dfy` | `Worker` | the WorkManager `LogWorker`: `attemptExecute`, `sendBatch`, `sendInBatches`, `doWork` |
| `legacy_worker.dfy` | `LegacyWorker` | the appender thread of the older `LogWorker`: one loop turn and its send trigger |
| `event.dfy` | `Event` | event construction by the `log` methods and `enrich` of both agents (timestamp, `meta`, geo fold) |
| `scheduling.dfy` | `Scheduling` | manifest entries, their defaults, and the work requests the agents issue |
| `legacy_logsene.dfy` | `LegacyLogsene` | the thread-based agent: configuration, lazily opened queue, 90% / batch / time trigger |
| `logsene.dfy` | `Logsene` | the WorkManager-based agent: `init` registry, pause/resume, minimum-delay trigger |

Both agents are modelled as a pure state transition: `(agent, input) -> (agent', request)`.
`request` is the work request the call makes: `NoRequest`, `Unconstrained`, `Constrained` or
`Periodic`. The network is a `Transport`: a function from the running number of an exchange and
the request to what came back (an I/O failure, or a status code with a parsed body). Each
exchange also records whether the reachability probe succeeded. Every property about retries
and delivery holds for every such function.

Where the code differs from what one might expect of such a library, the model follows the code:

- `add` evicts exactly one row per append. It does not evict "enough rows to return to
  capacity", so a queue opened over more rows than its capacity never shrinks back by
  appends (`ObjectQueue.OverCapacityPersists`).
- A non-2xx status ends the attempts at once. Only I/O failures and a failed
  reachability probe are retried (`Worker.AttemptExecute`).
- The WorkManager-based agent has no 90% rule. A queue exactly at capacity is only
  logged, and its trigger is batch size, minimum delay and the active flag
  (`Logsene.Enqueue`).

## Model

| member | source | states |
|---|---|---|
| `ObjectQueue.NextId` | logseneandroid/src/main/java/com/sematext/logseneandroid/SqliteObjectQueue.java:99 | a new row's id is larger than every id already in the table, so appended rows stay at the tail in id order |
| `ObjectQueue.Open` | logseneandroid/src/main/java/com/sematext/logseneandroid/SqliteObjectQueue.java:70-80 | a non-positive capacity is rejected with its message; otherwise the queue holds the stored rows, with that capacity and an empty size cache |
| `ObjectQueue.OpenDefault` | logseneandroid/src/main/java/com/sematext/logseneandroid/SqliteObjectQueue.java:54-61 | the constructor without a size opens with capacity 5000 over the stored rows |
| `ObjectQueue.Size` | logseneandroid/src/main/java/com/sematext/logseneandroid/SqliteObjectQueue.java:86-92 | the returned size is the true row count whether or not the cache was filled; afterwards the cache holds it and the rows are unchanged |
| `ObjectQueue.Remove` | logseneandroid/src/main/java/com/sematext/logseneandroid/SqliteObjectQueue.java:140-149 | `remove(n)` deletes the `min(n, size)` oldest rows, and every row when `n` is negative (SQLite's LIMIT -1); the cache stays filled or empty and stays correct |
| `ObjectQueue.Add` | logseneandroid/src/main/java/com/sematext/logseneandroid/SqliteObjectQueue.java:97-106 | the document becomes the last row, with an id above all others; if the capacity is exceeded, exactly the oldest row is dropped, otherwise nothing is; the cache ends filled and correct |
| `ObjectQueue.Peek` | logseneandroid/src/main/java/com/sematext/logseneandroid/SqliteObjectQueue.java:113-134 | a non-positive `max` is rejected; otherwise it returns the `min(max, size)` oldest documents, oldest first |
| `ObjectQueue.AddAllInOrder` | logseneandroid/src/main/java/com/sematext/logseneandroid/SqliteObjectQueue.java:97-106 | FIFO: when nothing is evicted, appended documents follow the queued ones in append order |
| `ObjectQueue.PeekReturnsAppendOrder` | logseneandroid/src/main/java/com/sematext/logseneandroid/SqliteObjectQueue.java:113-134 | peeking `n` after appending `n` documents to an empty queue with room returns them in append order |
| `ObjectQueue.AddKeepsCapacity` | logseneandroid/src/main/java/com/sematext/logseneandroid/SqliteObjectQueue.java:103-105 | a queue within capacity stays within it, and a full queue is still exactly full after an append |
| `ObjectQueue.OverCapacityPersists` | logseneandroid/src/main/java/com/sematext/logseneandroid/SqliteObjectQueue.java:103-105 | a queue above capacity keeps its size on append: the oldest document leaves and the new one joins |
| `ObjectQueue.AddDocs` | logseneandroid/src/main/java/com/sematext/logseneandroid/SqliteObjectQueue.java:97-106 | one append within capacity leaves the last `maxSize` of the old documents plus the new one |
| `ObjectQueue.AddAllKeepsNewest` | logseneandroid/src/main/java/com/sematext/logseneandroid/SqliteObjectQueue.java:68-106 | after any run of appends, the queue holds exactly the newest `maxSize` documents ever queued, in order |
| `ObjectQueue.SixIntoFive` | logseneandroid/src/main/java/com/sematext/logseneandroid/SqliteObjectQueue.java:103-105 | with capacity 5, appending A..F to an empty queue leaves B..F |
| `ObjectQueue.PeekThenRemove` | logseneandroid/src/main/java/com/sematext/logseneandroid/SqliteObjectQueue.java:113-149 | removing as many rows as a peek returned leaves exactly the documents after the peeked ones |
| `Text.Trim` | src/main/java/com/sematext/android/logsene/LogseneClient.java:33 | the result is a contiguous piece of the input with no character of code at most U+0020 at either end |
| `Text.TrimIdempotent` | src/main/java/com/sematext/android/logsene/LogseneClient.java:33 | trimming twice is trimming once |
| `Text.TrimKeepsInnerCharacters` | logseneandroid/src/main/java/com/sematext/logseneandroid/logsene/Bulk.java:54 | `trim()` cuts only blanks at the two ends; everything between them is kept as it was |
| `Text.LinesOfUnlines` | logseneandroid/src/main/java/com/sematext/logseneandroid/logsene/Bulk.java:51-56 | splitting a newline-framed body at its newlines gives back the framed lines when none holds a newline of its own |
| `Text.CountNewlinesOfUnlines` | logseneandroid/src/main/java/com/sematext/logseneandroid/logsene/Bulk.java:53-54 | a framed body holds exactly one newline per line |
| `Client.Normalize` | src/main/java/com/sematext/android/logsene/LogseneClient.java:33-36 | the stored URL is the trimmed URL, minus one trailing `/` exactly when the trimmed URL ends with one |
| `Client.Create` | src/main/java/com/sematext/android/logsene/LogseneClient.java:30-39 | a null URL or token throws a null-pointer error; otherwise the token is kept and the stored URL is the trimmed URL, with one trailing `/` removed when there is one (exactly `Normalize`) |
| `Client.Endpoint` | src/main/java/com/sematext/android/logsene/LogseneClient.java:52 | a bulk request goes to the stored URL followed by `/_bulk` |
| `Client.EndpointInjective` | src/main/java/com/sematext/android/logsene/LogseneClient.java:52 | two clients post to the same endpoint exactly when they store the same URL |
| `Client.TrailingSlashIrrelevant` | src/main/java/com/sematext/android/logsene/LogseneClient.java:33-36 | a clean URL written with or without one trailing slash is stored the same |
| `Client.NormalizeIdempotentWhenClean` | src/main/java/com/sematext/android/logsene/LogseneClient.java:33-36 | normalising again changes nothing when the first result has no trailing slash or blank |
| `Client.NormalizeDropsOneSlash` | src/main/java/com/sematext/android/logsene/LogseneClient.java:33-36 | a trimmed URL that ends in `/` is stored without that last character |
| `Client.DoubleSlashKeepsOne` | src/main/java/com/sematext/android/logsene/LogseneClient.java:34-36 | only one slash is removed: for any trimmed `u`, `u//` is stored as `u/` and posts to `u//_bulk` |
| `Bulk.Create` | logseneandroid/src/main/java/com/sematext/logseneandroid/logsene/Bulk.java:23-31 | lists of different lengths are rejected with the constructor's message; otherwise the bulk holds exactly the given lists |
| `Bulk.DirectiveSingleLine` | logseneandroid/src/main/java/com/sematext/logseneandroid/logsene/Bulk.java:53 | the action line is a single line when the index and the type are |
| `Bulk.BodyLines` | logseneandroid/src/main/java/com/sematext/logseneandroid/logsene/Bulk.java:52-55 | the body has two lines per entry |
| `Bulk.BodyLinesAt` | logseneandroid/src/main/java/com/sematext/logseneandroid/logsene/Bulk.java:52-55 | line 2i is entry i's action line, with the index and entry i's type; line 2i+1 is entry i's trimmed document |
| `Bulk.EncodeFramesLines` | logseneandroid/src/main/java/com/sematext/logseneandroid/logsene/Bulk.java:49-57 | the text the loop builds is the body lines, each followed by a newline |
| `Bulk.ToString` | logseneandroid/src/main/java/com/sematext/logseneandroid/logsene/Bulk.java:49-57 | a null index throws a null-pointer error; otherwise the result is the framed body lines, and an empty bulk gives the empty text |
| `Bulk.ReadBack` | logseneandroid/src/main/java/com/sematext/logseneandroid/logsene/Bulk.java:49-57 | reading the body back line by line gives two lines per entry in entry order, directive then document, with as many newlines as lines |
| `Bulk.AddSource` | logseneandroid/src/main/java/com/sematext/logseneandroid/logsene/Bulk.java:72-78 | a null source or type throws a null-pointer error; otherwise both lists grow by one at the end |
| `Bulk.Build` | logseneandroid/src/main/java/com/sematext/logseneandroid/logsene/Bulk.java:84-86 | building succeeds exactly when the lists have equal length, and keeps them |
| `Bulk.BuilderNeverFails` | logseneandroid/src/main/java/com/sematext/logseneandroid/logsene/Bulk.java:72-86 | a builder fed one source at a time with one type cannot fail to build; it holds the documents in order, each with that type |
| `Worker.Classify` | logseneandroid/src/main/java/com/sematext/logseneandroid/LogWorker.java:105-113 | an exchange is unreachable exactly when the probe is enabled and failed; otherwise an I/O failure, a non-2xx status, or a 2xx with its body |
| `Worker.AttemptExecute` | logseneandroid/src/main/java/com/sematext/logseneandroid/LogWorker.java:98-128 | retry policy: at most `left` exchanges; every exchange before the last was an I/O failure or unreachable; the last decides; the batch is sent exactly when it was a 2xx; per-document errors are reported only for a sent batch |
| `Worker.AttemptLoop` | logseneandroid/src/main/java/com/sematext/logseneandroid/LogWorker.java:98-128 | the retry recursion run as a bounded loop gives the same result and uses at most the attempt budget |
| `Worker.FailingTransport` | logseneandroid/src/main/java/com/sematext/logseneandroid/LogWorker.java:124-126 | a receiver that only fails at the I/O level is tried exactly as often as there are attempts, and the batch is not sent |
| `Worker.AcceptedAtOnce` | logseneandroid/src/main/java/com/sematext/logseneandroid/LogWorker.java:109-123 | against a receiver that always answers 2xx, the first exchange delivers |
| `Worker.BatchRequest` | logseneandroid/src/main/java/com/sematext/logseneandroid/LogWorker.java:90-96 | the request for a batch goes to the client's endpoint, and its body is the bulk of the batch's documents, each with the configured type, indexed under the app token |
| `Worker.SendBatch` | logseneandroid/src/main/java/com/sematext/logseneandroid/LogWorker.java:90-96 | sending a batch is one run of the retry policy with 3 attempts on its bulk request: it reports a delivery exactly when that run got a 2xx, a failure is where that run gave up, and it uses between one and three exchanges |
| `Worker.Batch` | logseneandroid/src/main/java/com/sematext/logseneandroid/LogWorker.java:76 | a batch is the up-to-50 oldest documents, in order |
| `Worker.AckStep` | logseneandroid/src/main/java/com/sematext/logseneandroid/LogWorker.java:78-81 | removing a delivered batch keeps the delivered prefix and the queue in step |
| `Worker.SendInBatches` | logseneandroid/src/main/java/com/sematext/logseneandroid/LogWorker.java:74-88 | delivered documents are the queue's oldest, in order, and exactly they are gone; every batch but the last is full; each was acknowledged by a 2xx; the run stops at the first failed batch or an empty queue; success means at least one batch; an always-accepting receiver never fails |
| `Worker.DoWork` | logseneandroid/src/main/java/com/sematext/logseneandroid/LogWorker.java:46-72 | an empty queue succeeds with nothing sent; otherwise the worker fails exactly when nothing was delivered; rows leave only with a batch a 2xx acknowledged (each batch with the exchange its attempt began at), and the run ends with an empty queue or at the first refused batch; an always-accepting receiver drains the whole queue in order |
| `LegacyWorker.LegacyConfig` | src/main/java/com/sematext/android/LogWorker.java:138-164 | the older worker never probes reachability |
| `LegacyWorker.Turn` | src/main/java/com/sematext/android/LogWorker.java:96-116 | a polled message is appended; a round runs exactly when the network is up, the queue is non-empty, and either the batch size is reached or more than 60 s passed; the send time is reset only after a round; rows leave only with a batch a 2xx acknowledged, the round ends with an empty queue or at the first refused batch, and each batch uses at most three exchanges |
| `LegacyWorker.NoProbeRetriesOnlyIOErrors` | src/main/java/com/sematext/android/LogWorker.java:143-163 | without the probe, an exchange is retried exactly when it failed at the I/O level |
| `Scheduling.Required` | logseneandroid/src/main/java/com/sematext/logseneandroid/Logsene.java:380-384 | a missing token is reported first, then a missing type, each with its message; with both present they are returned |
| `Event.BuiltinMeta` | logseneandroid/src/main/java/com/sematext/logseneandroid/Logsene.java:538-543 | generated `meta` has version name and code, OS release and installation id, plus `osType` "Android" in the newer agent only |
| `Event.Meta` | logseneandroid/src/main/java/com/sematext/logseneandroid/Logsene.java:537-552 | generated `meta` is the built-in fields with every default-meta entry put over them, so user defaults win on a clash |
| `Event.StampAndMeta` | logseneandroid/src/main/java/com/sematext/logseneandroid/Logsene.java:532-552 | `@timestamp` and `meta` are added only when absent; the caller's values are never overwritten; no other key changes |
| `Event.EnrichLegacy` | src/main/java/com/sematext/android/Logsene.java:376-403 | the older enrichment keeps every key the event had, adds only `@timestamp` and `meta`, and its `meta` has no `osType` of its own |
| `Event.FoldGeo` | logseneandroid/src/main/java/com/sematext/logseneandroid/Logsene.java:555-562 | when `lat` and `lon` are both present and format, they are replaced by `geo.location`; otherwise the event is unchanged; other keys stay |
| `Event.Enrich` | logseneandroid/src/main/java/com/sematext/logseneandroid/Logsene.java:529-567 | `@timestamp` and `meta` (with `osType` in a generated `meta`) are added only when absent and a caller's values are kept; a `lat`/`lon` pair that formats is replaced by `geo.location`; every other key keeps its value, and without a formattable pair every non-managed key is kept |
| `Event.EnrichLegacyIdempotent` | src/main/java/com/sematext/android/Logsene.java:379-398 | enriching an enriched event changes nothing |
| `Event.EnrichIdempotent` | logseneandroid/src/main/java/com/sematext/logseneandroid/Logsene.java:532-562 | enriching an enriched event changes nothing, geo fold included |
| `Event.AddLocation` | logseneandroid/src/main/java/com/sematext/logseneandroid/Logsene.java:522-527 | `lat` and `lon` are added together and only when both are given; nothing else changes |
| `Event.WithListenerLocation` | logseneandroid/src/main/java/com/sematext/logseneandroid/Logsene.java:516-520 | the listener's location text is added when there is a listener; nothing else changes |
| `Event.Located` | logseneandroid/src/main/java/com/sematext/logseneandroid/Logsene.java:199-200 | after the two location steps the event has `lat`/`lon` exactly when both were given and `location` exactly when there is a listener |
| `Event.MessageEvent` | logseneandroid/src/main/java/com/sematext/logseneandroid/Logsene.java:195-200 | a message event has its level and message, and the location fields as the location steps give them |
| `Event.ErrorEvent` | logseneandroid/src/main/java/com/sematext/logseneandroid/Logsene.java:334-341 | an exception event has level, exception class and stack trace, and a message exactly when the throwable has one |
| `Event.LoggedErrorFields` | src/main/java/com/sematext/android/Logsene.java:214-227 | an exception logged by the older agent is queued with exactly its own keys plus `@timestamp` and `meta`, and its class and stack trace unchanged |
| `Event.LoggedPositionBecomesGeo` | logseneandroid/src/main/java/com/sematext/logseneandroid/Logsene.java:193-206 | a message logged with a formattable position is queued with `geo` and without `lat`/`lon`, its message intact |
| `Event.PositionFolds` | logseneandroid/src/main/java/com/sematext/logseneandroid/Logsene.java:555-562 | an event holding a formattable position loses `lat`/`lon` and gains `geo`, and keeps its message |
| `LegacyLogsene.Configure` | src/main/java/com/sematext/android/Logsene.java:102-124 | token and type are required, and a missing one fails with its message (token first); the receiver URL, capacity, minimum batch size and time trigger are the manifest's values when present and their defaults (the Logsene receiver, 5000, 10, 60000 ms) when absent |
| `LegacyLogsene.Construct` | src/main/java/com/sematext/android/Logsene.java:82-96 | construction fails exactly on a configuration error; otherwise the agent holds the configured settings and the given platform (installation id and version), the queue is not open yet and the time trigger starts now |
| `LegacyLogsene.DatabaseReady` | src/main/java/com/sematext/android/Logsene.java:89-94 | the database thread opens the queue over the stored rows; a non-positive capacity leaves the agent without a queue (see "Left out" for what Android does instead) |
| `LegacyLogsene.Enqueue` | src/main/java/com/sematext/android/Logsene.java:299-331 | without a queue the event is dropped and nothing is asked; otherwise it is appended and the request is unconstrained at 90% of capacity, else constrained on batch size or elapsed time, else none; `lastScheduled` moves exactly when something is asked |
| `LegacyLogsene.AddToQueue` | src/main/java/com/sematext/android/Logsene.java:299-308 | without a queue the event is lost and nothing is asked for; otherwise the queue holds what `add` of the serialised enriched event leaves, the run asked for is unconstrained when the queue is nearly full, constrained when it holds a batch or the time trigger has elapsed, and none otherwise, and `lastScheduled` moves exactly with a request |
| `LegacyLogsene.LogMessage` | src/main/java/com/sematext/android/Logsene.java:148-159 | the serialised enriched level/message event is appended with the scheduling decision of `addToQueue` (lost before the queue is open); once the queue is open it is the newest row |
| `LegacyLogsene.LogError` | src/main/java/com/sematext/android/Logsene.java:214-227 | the serialised enriched exception event is appended with the scheduling decision of `addToQueue` (lost before the queue is open); once the queue is open it is the newest row |
| `LegacyLogsene.Flush` | src/main/java/com/sematext/android/Logsene.java:254-257 | a flush asks for an unconstrained run and changes no field of the agent (rows, settings, platform, `lastScheduled`); before the queue is open it throws a null-pointer error |
| `LegacyLogsene.QueueSize` | src/main/java/com/sematext/android/Logsene.java:98-100 | the size is the row count; before the queue is open it throws a null-pointer error |
| `LegacyLogsene.EnqueueAll` | src/main/java/com/sematext/android/Logsene.java:314-318 | after a run of events, the last request is unconstrained exactly when the final size is at 90% of capacity |
| `LegacyLogsene.EnqueueAllAppends` | src/main/java/com/sematext/android/Logsene.java:299-308 | on the queue, a run of events is a run of appends of their documents, whatever the clock |
| `LegacyLogsene.EnqueueAllKeepsNewest` | src/main/java/com/sematext/android/Logsene.java:308-312 | the queue holds the newest `maxOfflineMessages` documents ever queued, in order |
| `LegacyLogsene.DroppedUntilOpen` | src/main/java/com/sematext/android/Logsene.java:300-303 | until the database thread has finished, every event is lost and nothing is asked |
| `LegacyLogsene.FullQueueForcesUnconstrained` | src/main/java/com/sematext/android/Logsene.java:314-318 | an append that reaches capacity always asks for an unconstrained run |
| `LegacyLogsene.QuietBetweenRequests` | src/main/java/com/sematext/android/Logsene.java:325-331 | below both size thresholds and within the time trigger, nothing is asked and `lastScheduled` stays |
| `LegacyLogsene.SixEventsIntoFive` | src/main/java/com/sematext/android/Logsene.java:299-331 | with capacity 5 and batch size 2, six events A..F leave B..F, and the last append asks for an unconstrained run |
| `Logsene.Configure` | logseneandroid/src/main/java/com/sematext/logseneandroid/Logsene.java:370-404 | token and type are required, and a missing one fails with its message (token first); the receiver URL, capacity, minimum delay and periodic interval are the manifest's values when present and their defaults (the Logsene receiver, 5000, 60000 ms, 900000 ms) when absent |
| `Logsene.Init` | logseneandroid/src/main/java/com/sematext/logseneandroid/Logsene.java:99-114 | a second `init` does nothing; a first one fails on configuration or on a non-positive capacity, and otherwise registers an active agent holding the configured settings and the given platform, with a queue of the configured capacity over the stored rows, `lastScheduled` now and the periodic worker requested |
| `Logsene.GetInstance` | logseneandroid/src/main/java/com/sematext/logseneandroid/Logsene.java:128-133 | the instance is returned exactly when initialised; otherwise a null-pointer error |
| `Logsene.InitIdempotent` | logseneandroid/src/main/java/com/sematext/logseneandroid/Logsene.java:99-114 | after a successful `init`, any further `init` changes nothing and asks for nothing |
| `Logsene.Pause` | logseneandroid/src/main/java/com/sematext/logseneandroid/Logsene.java:164-166 | pausing clears the active flag; queue, `lastScheduled`, settings, platform and listener location are unchanged |
| `Logsene.Resume` | logseneandroid/src/main/java/com/sematext/logseneandroid/Logsene.java:171-173 | resuming sets the active flag; queue, `lastScheduled`, settings, platform and listener location are unchanged |
| `Logsene.Enqueue` | logseneandroid/src/main/java/com/sematext/logseneandroid/Logsene.java:494-505 | the document is appended; a constrained run is asked exactly when at least 10 are queued, the minimum delay has passed (or nothing was asked yet) and the agent is active; `lastScheduled` moves exactly then |
| `Logsene.AddToQueue` | logseneandroid/src/main/java/com/sematext/logseneandroid/Logsene.java:485-506 | the serialised enriched event (geo fold included) is appended under the queue's capacity rule; a constrained run is asked for exactly when the agent is active, ten events are queued and the minimum delay has passed; `lastScheduled` moves exactly then and nothing else changes |
| `Logsene.Flush` | logseneandroid/src/main/java/com/sematext/logseneandroid/Logsene.java:365-368 | a flush asks for an unconstrained run and changes no field of the agent (rows, settings, platform, `lastScheduled`, active flag, listener location) |
| `Logsene.LogMessage` | logseneandroid/src/main/java/com/sematext/logseneandroid/Logsene.java:193-206 | the serialised enriched message event, with the listener's location and the given position, is appended with the scheduling decision of `addToQueue` and becomes the newest row |
| `Logsene.LogError` | logseneandroid/src/main/java/com/sematext/logseneandroid/Logsene.java:332-347 | the serialised enriched exception event, with the listener's location and the given position, is appended with the scheduling decision of `addToQueue` and becomes the newest row |
| `Logsene.EnqueueAll` | logseneandroid/src/main/java/com/sematext/logseneandroid/Logsene.java:485-506 | a run of events answers each with one request and keeps settings, platform and the active flag |
| `Logsene.EnqueueAllAppends` | logseneandroid/src/main/java/com/sematext/logseneandroid/Logsene.java:494 | on the queue, a run of events is a run of appends of their documents, whatever the clock and the active flag |
| `Logsene.EnqueueAllKeepsNewest` | logseneandroid/src/main/java/com/sematext/logseneandroid/Logsene.java:494-499 | the queue holds the newest `maxOfflineMessages` documents ever queued, in order |
| `Logsene.PausedNeverSchedules` | logseneandroid/src/main/java/com/sematext/logseneandroid/Logsene.java:501-505 | while paused, no append asks for a run and `lastScheduled` stays, however many events arrive |
| `Logsene.FlushIgnoresPause` | logseneandroid/src/main/java/com/sematext/logseneandroid/Logsene.java:358-368 | pausing does not stop a flush |
| `Logsene.ResumeRestoresScheduling` | logseneandroid/src/main/java/com/sematext/logseneandroid/Logsene.java:501-505 | after resuming, an append over the batch size with the delay passed asks for a constrained run again, also when the queue is full |
| `Logsene.MinimumDelayBetweenRequests` | logseneandroid/src/main/java/com/sematext/logseneandroid/Logsene.java:501-505 | after a request, appends within `minTimeDelay` of it ask for nothing, however full the queue is |
| `Logsene.QuietWithinDelay` | logseneandroid/src/main/java/com/sematext/logseneandroid/Logsene.java:501-505 | appends within the delay of a real `lastScheduled` ask for nothing and leave it unchanged |

## Left out

- SQLite itself, cursors, `SELECT CHANGES()` and the process-wide static size-cache map are not modelled. The table is a sequence of rows, the cache is one optional count per queue, and the row id is the last id plus one.
- The no-argument and capacity-only `SqliteObjectQueue` constructors that the WorkManager-based classes call are not part of this model. They are assumed to behave like the constructor with a name, using that class's default name and capacity.
- The `LogseneClient` of the WorkManager-based package is not part of this model. The older client, which has the same constructor and endpoint, stands for both.
- The thread-based agent's own `com.sematext.android.SqliteObjectQueue`, used by its `Logsene` and `LogWorker`, is not part of this model. The WorkManager-based package's `SqliteObjectQueue` stands for both agents, so every queue property of `LegacyLogsene` and `LegacyWorker` rests on that substitution.
- The `com.sematext.android.logsene.Bulk` that the thread-based `LogWorker` imports is not part of this model. The WorkManager-based package's `Bulk` stands for both agents.
- OkHttp, `ApiResponse` parsing, `Utils.isURLReachable` and its timeout are outside the model: an exchange's outcome, its parsed JSON and the probe result are inputs from the `Transport`.
- The appender thread, the in-memory `BlockingQueue`, the database thread and all concurrency are left out. A loop turn takes what `poll` returned as a parameter, and the database thread's completion is the explicit step `DatabaseReady`.
- Clocks are parameters: `System.currentTimeMillis`, `SystemClock.elapsedRealtime` and `Utils.iso8601`. Both agents read `elapsedRealtime` more than once in `addToQueue`: the newer one for the delay test and for `lastScheduled`, the thread-based one for the time trigger and for `lastScheduled` in either branch. The model uses one reading `now` for all of them.
- WorkManager (unique work, `KEEP`, tags, input data, constraints) is left out. A work request is the value `NoRequest`, `Unconstrained`, `Constrained` or `Periodic`.
- `peek` parses every stored row into a `JSONObject`, and `Bulk.addSource` serialises it again with `toString`. The model treats that parse and re-serialise round trip as the identity on the stored text.
- JSON serialisation is a function parameter. The `%.2f` geo text is a parameter `GeoFormat`, and a `getDouble` failure is its `None`.
- Installation ids, package info, `Build.VERSION` and the manifest `Bundle` are left out. They are inputs (`Platform`, `Manifest`); a manifest without any meta-data bundle is not modelled.
- The location listener, `LogseneHandler`, `LogseneService`, the UI, the log-level convenience methods (`debug`, `info`, `warn`, `error`), `event` (which is `AddToQueue` on the caller's object) and `setDefaultMeta` (the `defaultMeta` parameter) are not modelled separately.
- Null levels and null values put into events are not modelled. Keys are always present strings, except that a throwable without a message leaves `message` out.
- Null arguments to the `log` methods are not modelled: `log(level, message…)` and `log(level, throwable…)` reject a null message or throwable through `Utils.requireNonNull` with a null-pointer error (src Logsene.java:149 and 215, logseneandroid Logsene.java:194 and 333), and the legacy `log(JSONObject)` does the same (src Logsene.java:234). The model's message and exception are always present.
- The newer `addToQueue` drops the event when `preflightQueue` is null (logseneandroid Logsene.java:486-489). That branch cannot be reached: `init` opens the queue before it publishes the instance, so `Logsene.Agent.queue` is not optional.
- Log lines, including the overflow warnings and the per-document error report, are not modelled. Only the per-document error flag of `attemptExecute` is kept.
- Integers are unbounded. Java's `long` and `int` overflow of ids, times and sizes is not modelled, and `maxOfflineMessages * 0.9` is modelled exactly as `10 * size >= 9 * max` rather than in double precision.
- Sending in `doWork` is bounded by the queue. A queue filled concurrently while the worker runs is not modelled.
- `LegacyLogsene.DatabaseReady`: for a non-positive capacity the queue constructor throws on the database thread and nothing catches it. On Android that uncaught exception ends the process; the model instead keeps the agent running without a queue, dropping every event, as a JVM would.
- `Event.AddLocation`: coordinates are `real`, so they are always finite. In the source `JSONObject.put` rejects a NaN or infinite `double` with `JSONException`, which `log(...)` catches, so such an event is silently never queued. The model has no such drop path.
- `LegacyLogsene.EnqueueAll`: states only the last request of a run. Each earlier request follows from `LegacyLogsene.Enqueue`, step by step.

=== FILE: bulk.dfy ===
/** A bulk request (`Bulk`): documents paired with the type each one is
    indexed under, encoded as the newline-delimited body of an
    Elasticsearch-style `_bulk` call.
 */
module Bulk {
  import opened Wrappers
  import opened Text

  /** The source lists; the constructor guarantees they have equal length. */
  datatype Bulk = Bulk(sources: seq<string>, types: seq<string>) {
    predicate Valid() {
      |sources| == |types|
    }
  }

  /** `new Bulk(sources, types)`: lists of different lengths are rejected. */
  function Create(sources: seq<string>, types: seq<string>): (r: Result<Bulk>)
    ensures r.Success? <==> |sources| == |types|
    ensures r.Failure? ==> r.error == IllegalArgument("sources and types should have the same size")
    ensures r.Success? ==> r.value.Valid() && r.value.sources == sources && r.value.types == types
  {
    if |sources| != |types| then Failure(IllegalArgument("sources and types should have the same size"))
    else Success(Bulk(sources, types))
  }

  /** The action line that tells the receiver to index the next document
      under `index` with type `typ`. */
  function Directive(index: string, typ: string): string {
    "{ \"index\" : { \"_index\": \"" + index + "\", \"_type\" : \"" + typ + "\" } }"
  }

  /** The directive is one line when the index and the type are. */
  lemma DirectiveSingleLine(index: string, typ: string)
    requires NoNewline(index) && NoNewline(typ)
    ensures NoNewline(Directive(index, typ))
  {
  }

  /** Pairs of lines, flattened in order. */
  function Flat(pairs: seq<(string, string)>): (r: seq<string>)
    ensures |r| == 2 * |pairs|
  {
    if pairs == [] then [] else [pairs[0].0, pairs[0].1] + Flat(pairs[1..])
  }

  lemma {:induction false} FlatAt(pairs: seq<(string, string)>, i: nat)
    requires i < |pairs|
    ensures Flat(pairs)[2 * i] == pairs[i].0 && Flat(pairs)[2 * i + 1] == pairs[i].1
  {
    if i > 0 {
      var rest := Flat(pairs[1..]);
      FlatAt(pairs[1..], i - 1);
      assert Flat(pairs) == [pairs[0].0, pairs[0].1] + rest;
      assert pairs[1..][i - 1] == pairs[i];
    }
  }

  /** Each entry as its directive and its trimmed document. */
  function Entries(index: string, sources: seq<string>, types: seq<string>): (r: seq<(string, string)>)
    requires |sources| == |types|
    ensures |r| == |sources|
    ensures forall i | 0 <= i < |sources| :: r[i] == (Directive(index, types[i]), Trim(sources[i]))
  {
    seq(|sources|, i requires 0 <= i < |sources| => (Directive(index, types[i]), Trim(sources[i])))
  }

  /** The lines of the body: for each entry, its directive and then its
      trimmed document. */
  function BodyLines(index: string, sources: seq<string>, types: seq<string>): (r: seq<string>)
    requires |sources| == |types|
    ensures |r| == 2 * |sources|
  {
    Flat(Entries(index, sources, types))
  }

  /** Line 2i of the body is the directive of entry i, with the index and
      the entry's type, and line 2i+1 is the entry's trimmed document. */
  lemma BodyLinesAt(index: string, sources: seq<string>, types: seq<string>, i: nat)
    requires |sources| == |types| && i < |sources|
    ensures BodyLines(index, sources, types)[2 * i] == Directive(index, types[i])
    ensures BodyLines(index, sources, types)[2 * i + 1] == Trim(sources[i])
  {
    FlatAt(Entries(index, sources, types), i);
  }

  /** The first entry's two lines, then the others'. */
  lemma BodyLinesStep(index: string, sources: seq<string>, types: seq<string>)
    requires |sources| == |types| && sources != []
    ensures BodyLines(index, sources, types)
         == [Directive(index, types[0]), Trim(sources[0])] + BodyLines(index, sources[1..], types[1..])
  {
    var e := Entries(index, sources, types);
    assert e[1..] == Entries(index, sources[1..], types[1..]);
  }

  /** The encoding loop of `toString(index)`, one entry at a time. */
  function Encode(index: string, sources: seq<string>, types: seq<string>): string
    requires |sources| == |types|
  {
    if sources == [] then ""
    else Directive(index, types[0]) + "\n" + Trim(sources[0]) + "\n"
         + Encode(index, sources[1..], types[1..])
  }

  /** One step of `Encode`, with the concatenation grouped to the right. */
  lemma {:induction false} EncodeStep(index: string, sources: seq<string>, types: seq<string>)
    requires |sources| == |types| && sources != []
    ensures Encode(index, sources, types)
         == Directive(index, types[0]) + "\n" + (Trim(sources[0]) + "\n" + Encode(index, sources[1..], types[1..]))
  {
  }

  /** Two steps of `Unlines` over the lines of one entry. */
  lemma {:induction false} UnlinesStep(d: string, t: string, rest: seq<string>)
    ensures Unlines([d, t] + rest) == d + "\n" + (t + "\n" + Unlines(rest))
  {
    var lines := [d, t] + rest;
    assert lines[1..] == [t] + rest;
    assert lines[1..][1..] == rest;
  }

  /** The encoding is the newline framing of the body lines. */
  lemma {:induction false} EncodeFramesLines(index: string, sources: seq<string>, types: seq<string>)
    requires |sources| == |types|
    ensures Encode(index, sources, types) == Unlines(BodyLines(index, sources, types))
  {
    if sources != [] {
      var rest := BodyLines(index, sources[1..], types[1..]);
      BodyLinesStep(index, sources, types);
      UnlinesStep(Directive(index, types[0]), Trim(sources[0]), rest);
      EncodeStep(index, sources, types);
      EncodeFramesLines(index, sources[1..], types[1..]);
    }
  }

  /** `toString(index)`: a null index is rejected; otherwise the body. */
  function ToString(b: Bulk, index: Option<string>): (r: Result<string>)
    requires b.Valid()
    ensures index.None? <==> r.Failure?
    ensures index.None? ==> r.error == NullPointer
    ensures r.Success? ==> r.value == Unlines(BodyLines(index.value, b.sources, b.types))
    ensures r.Success? && b.sources == [] ==> r.value == ""
  {
    match index
    case None => Failure(NullPointer)
    case Some(idx) =>
      EncodeFramesLines(idx, b.sources, b.types);
      Success(Encode(idx, b.sources, b.types))
  }

  /** No index, type or trimmed document carries a line break of its own:
      true of JSON text, which escapes newlines. */
  predicate SingleLineEntries(index: string, sources: seq<string>, types: seq<string>)
    requires |sources| == |types|
  {
    && NoNewline(index)
    && (forall i | 0 <= i < |types| :: NoNewline(types[i]))
    && (forall i | 0 <= i < |sources| :: NoNewline(Trim(sources[i])))
  }

  /** Reading an encoded body back line by line gives, for entry i, line 2i
      holding its directive (with the index and its type) and line 2i+1
      holding its trimmed document: exactly two lines per entry, in entry
      order, and as many newlines as lines. */
  lemma ReadBack(b: Bulk, index: string)
    requires b.Valid() && SingleLineEntries(index, b.sources, b.types)
    ensures var body := ToString(b, Some(index)).value;
      && Lines(body) == BodyLines(index, b.sources, b.types)
      && |Lines(body)| == 2 * |b.sources|
      && CountNewlines(body) == 2 * |b.sources|
  {
    var lines := BodyLines(index, b.sources, b.types);
    forall i | 0 <= i < |lines|
      ensures NoNewline(lines[i])
    {
      var j := i / 2;
      BodyLinesAt(index, b.sources, b.types, j);
      if i % 2 == 0 {
        assert i == 2 * j;
        DirectiveSingleLine(index, b.types[j]);
      } else {
        assert i == 2 * j + 1;
      }
    }
    LinesOfUnlines(lines);
    CountNewlinesOfUnlines(lines);
  }

  /** `Bulk.Builder`: its lists are public and may be changed by anyone,
      so `build()` re-runs the constructor's check. */
  datatype Builder = Builder(sources: seq<string>, types: seq<string>)

  const EmptyBuilder: Builder := Builder([], [])

  /** `addSource(source, typ)`: null arguments are rejected; otherwise both
      lists grow by one at the end. */
  function AddSource(b: Builder, source: Option<string>, typ: Option<string>): (r: Result<Builder>)
    ensures r.Success? <==> source.Some? && typ.Some?
    ensures r.Failure? ==> r.error == NullPointer
    ensures r.Success? ==> r.value.sources == b.sources + [source.value]
    ensures r.Success? ==> r.value.types == b.types + [typ.value]
  {
    if source.None? || typ.None? then Failure(NullPointer)
    else Success(Builder(b.sources + [source.value], b.types + [typ.value]))
  }

  /** `build()`. */
  function Build(b: Builder): (r: Result<Bulk>)
    ensures r.Success? <==> |b.sources| == |b.types|
    ensures r.Success? ==> r.value.Valid() && r.value.sources == b.sources && r.value.types == b.types
  {
    Create(b.sources, b.types)
  }

  /** A builder fed through `addSource` from empty, as the workers do. */
  function AddAllSources(b: Builder, sources: seq<string>, typ: string): Builder
    decreases |sources|
  {
    if sources == [] then b
    else AddAllSources(AddSource(b, Some(sources[0]), Some(typ)).value, sources[1..], typ)
  }

  /** The builder used as the workers use it keeps its lists the same
      length, so `build()` cannot fail; the bulk holds the documents in
      order, each with the one configured type. */
  lemma {:induction false} BuilderNeverFails(b: Builder, sources: seq<string>, typ: string)
    requires |b.sources| == |b.types|
    ensures var built := AddAllSources(b, sources, typ);
      && built.sources == b.sources + sources
      && built.types == b.types + seq(|sources|, _ => typ)
      && Build(built).Success?
    decreases |sources|
  {
    if sources != [] {
      var b1 := AddSource(b, Some(sources[0]), Some(typ)).value;
      BuilderNeverFails(b1, sources[1..], typ);
      assert b.sources + [sources[0]] + sources[1..] == b.sources + sources;
      assert b.types + [typ] + seq(|sources| - 1, _ => typ) == b.types + seq(|sources|, _ => typ);
    } else {
      assert b.sources + sources == b.sources;
      assert b.types + seq(|sources|, _ => typ) == b.types;
    }
  }
}

=== FILE: client.dfy ===
/** The receiver client (`LogseneClient`): URL normalisation at construction
    and the target of every bulk request. The HTTP call itself is the
    transport of the delivery engine.
 */
module Client {
  import opened Wrappers
  import opened Text

  datatype Client = Client(receiverUrl: string, appToken: string)

  /** The constructor's rewriting of the receiver URL: trim it, then drop
      one trailing `/` if there is one. */
  function Normalize(url: string): (r: string)
    ensures Trim(url) == r || Trim(url) == r + "/"
    ensures !EndsWithSlash(Trim(url)) ==> r == Trim(url)
    ensures EndsWithSlash(Trim(url)) ==> r + "/" == Trim(url)
  {
    var t := Trim(url);
    if EndsWithSlash(t) then
      assert t == t[..|t| - 1] + "/";
      t[..|t| - 1]
    else t
  }

  /** `new LogseneClient(receiverUrl, appToken)`: null arguments are
      rejected; otherwise the normalised URL and the token are kept. */
  function Create(receiverUrl: Option<string>, appToken: Option<string>): (r: Result<Client>)
    ensures r.Failure? <==> receiverUrl.None? || appToken.None?
    ensures r.Failure? ==> r.error == NullPointer
    ensures r.Success? ==> r.value.appToken == appToken.value
    ensures r.Success? ==> Trim(receiverUrl.value) in {r.value.receiverUrl, r.value.receiverUrl + "/"}
    ensures r.Success? && !EndsWithSlash(Trim(receiverUrl.value)) ==> r.value.receiverUrl == Trim(receiverUrl.value)
    ensures r.Success? && EndsWithSlash(Trim(receiverUrl.value)) ==> r.value.receiverUrl + "/" == Trim(receiverUrl.value)
    ensures r.Success? ==> r.value.receiverUrl == Normalize(receiverUrl.value)
  {
    if receiverUrl.None? || appToken.None? then Failure(NullPointer)
    else Success(Client(Normalize(receiverUrl.value), appToken.value))
  }

  const BULK_PATH: string := "/_bulk"

  /** The URL every bulk request of `execute` is posted to. */
  function Endpoint(c: Client): (r: string)
    ensures |r| == |c.receiverUrl| + 6
    ensures r[..|c.receiverUrl|] == c.receiverUrl && r[|c.receiverUrl|..] == "/_bulk"
  {
    c.receiverUrl + BULK_PATH
  }

  /** The endpoint is determined by, and determines, the stored URL. */
  lemma EndpointInjective(a: Client, b: Client)
    ensures Endpoint(a) == Endpoint(b) <==> a.receiverUrl == b.receiverUrl
  {
    if Endpoint(a) == Endpoint(b) {
      assert a.receiverUrl == Endpoint(a)[..|Endpoint(a)| - 6];
      assert b.receiverUrl == Endpoint(b)[..|Endpoint(b)| - 6];
    }
  }

  /** A URL written with or without its trailing slash, and with any
      surrounding blanks, reaches the same endpoint. */
  lemma {:induction false} TrailingSlashIrrelevant(url: string)
    requires IsTrimmed(url) && !EndsWithSlash(url) && url != []
    ensures Normalize(url + "/") == url
    ensures Normalize(url) == url
  {
    TrimOfTrimmed(url);
    var s := url + "/";
    assert IsTrimmed(s);
    TrimOfTrimmed(s);
  }

  /** Normalisation is idempotent exactly when it leaves no trailing slash
      and no trailing blank behind; it removes only ONE slash, so `a//`
      becomes `a/` and a second normalisation would change it again. */
  lemma {:induction false} NormalizeIdempotentWhenClean(url: string)
    requires var n := Normalize(url); !EndsWithSlash(n) && IsTrimmed(n)
    ensures Normalize(Normalize(url)) == Normalize(url)
  {
    TrimOfTrimmed(Normalize(url));
  }

  /** A trimmed URL ending in a slash loses exactly that slash. */
  lemma {:induction false} NormalizeDropsOneSlash(s: string)
    requires IsTrimmed(s) && EndsWithSlash(s)
    ensures Normalize(s) == s[..|s| - 1]
  {
    TrimOfTrimmed(s);
  }

  /** Only one trailing slash goes: `u//` is stored as `u/`, and its bulk
      requests go to `u//_bulk`. */
  lemma {:induction false} DoubleSlashKeepsOne(u: string, token: string)
    requires IsTrimmed(u)
    ensures Normalize(u + "//") == u + "/"
    ensures Endpoint(Client(Normalize(u + "//"), token)) == u + "//_bulk"
  {
    var s := u + "//";
    assert s[0] == (if u == [] then '/' else u[0]) && s[|s| - 1] == '/';
    NormalizeDropsOneSlash(s);
    assert s[..|s| - 1] == u + "/";
    assert (u + "/") + BULK_PATH == u + "//_bulk";
  }
}

=== FILE: event.dfy ===
/** Events and their enrichment before they are queued (both `Logsene`
    variants). An event is a JSON object: a map from keys to values. Only
    the presence and absence of keys is modelled faithfully; the text of
    the timestamp and of the geo location comes from outside.
 */
module Event {
  import opened Wrappers

  datatype Value =
    | Str(s: string)
    | Int(i: int)
    | Num(x: real)
    | Bool(b: bool)
    | Obj(fields: map<string, Value>)

  type Event = map<string, Value>

  /** Where the built-in `meta` fields come from: package info, `Build` and
      the installation id. */
  datatype Platform = Platform(versionName: string, versionCode: int, osRelease: string, uuid: string)

  /** The fields the agent puts in a generated `meta` object; only the
      newer agent adds `osType`. */
  function BuiltinMeta(p: Platform, withOsType: bool): (m: map<string, Value>)
    ensures m.Keys == {"versionName", "versionCode", "osRelease", "uuid"} + (if withOsType then {"osType"} else {})
    ensures withOsType ==> m["osType"] == Str("Android")
  {
    var m := map["versionName" := Str(p.versionName), "versionCode" := Int(p.versionCode),
                 "osRelease" := Str(p.osRelease), "uuid" := Str(p.uuid)];
    if withOsType then m["osType" := Str("Android")] else m
  }

  /** The generated `meta` object: the built-in fields, then every entry of
      `defaultMeta` put over them, so user defaults win on a clash. */
  function Meta(p: Platform, withOsType: bool, defaultMeta: Option<Event>): (m: map<string, Value>)
    ensures defaultMeta.None? ==> m == BuiltinMeta(p, withOsType)
    ensures defaultMeta.Some? ==> m.Keys == BuiltinMeta(p, withOsType).Keys + defaultMeta.value.Keys
    ensures defaultMeta.Some? ==> forall k | k in defaultMeta.value :: m[k] == defaultMeta.value[k]
    ensures forall k | k in BuiltinMeta(p, withOsType) && (defaultMeta.None? || k !in defaultMeta.value) ::
      m[k] == BuiltinMeta(p, withOsType)[k]
  {
    match defaultMeta
    case None => BuiltinMeta(p, withOsType)
    case Some(d) => BuiltinMeta(p, withOsType) + d
  }

  /** An event handed to an agent, with the two clock readings taken while
      it is queued: the elapsed-time clock and the ISO 8601 wall time. */
  datatype Arrival = Arrival(obj: Event, now: int, timestamp: string)

  /** Keys the enrichment may write. */
  predicate Managed(k: string) {
    k == "@timestamp" || k == "meta"
  }

  /** The shared first half of `enrich`: add `@timestamp` and `meta` only
      when absent; every other key is left alone. */
  function StampAndMeta(obj: Event, timestamp: string, meta: map<string, Value>): (r: Event)
    ensures "@timestamp" in r && "meta" in r
    ensures "@timestamp" in obj ==> r["@timestamp"] == obj["@timestamp"]
    ensures "@timestamp" !in obj ==> r["@timestamp"] == Str(timestamp)
    ensures "meta" in obj ==> r["meta"] == obj["meta"]
    ensures "meta" !in obj ==> r["meta"] == Obj(meta)
    ensures forall k | !Managed(k) :: (k in r <==> k in obj)
    ensures forall k | !Managed(k) && k in obj :: r[k] == obj[k]
  {
    var stamped := if "@timestamp" in obj then obj else obj["@timestamp" := Str(timestamp)];
    if "meta" in stamped then stamped else stamped["meta" := Obj(meta)]
  }

  /** `enrich` of the thread-based agent. */
  function EnrichLegacy(obj: Event, timestamp: string, p: Platform, defaultMeta: Option<Event>): (r: Event)
    ensures "@timestamp" in r && "meta" in r
    ensures "@timestamp" !in obj ==> r["@timestamp"] == Str(timestamp)
    ensures "meta" !in obj ==> r["meta"] == Obj(Meta(p, false, defaultMeta))
    ensures "meta" !in obj ==> "osType" !in Meta(p, false, defaultMeta) || (defaultMeta.Some? && "osType" in defaultMeta.value)
    ensures forall k | k in obj :: k in r && r[k] == obj[k]
    ensures forall k | !Managed(k) && k in r :: k in obj
  {
    StampAndMeta(obj, timestamp, Meta(p, false, defaultMeta))
  }

  /** Formats `lat` and `lon` as the `geo.location` text; `None` when either
      value is not a number (`getDouble` throws). */
  type GeoFormat = (Value, Value) -> Option<string>

  /** The last step of the newer `enrich`: when both `lat` and `lon` are
      present and format, they are replaced by a `geo` object. A format
      failure is caught and leaves the event as it was. */
  function FoldGeo(o: Event, format: GeoFormat): (r: Event)
    ensures !("lat" in o && "lon" in o) ==> r == o
    ensures "lat" in o && "lon" in o && format(o["lat"], o["lon"]).None? ==> r == o
    ensures "lat" in o && "lon" in o && format(o["lat"], o["lon"]).Some? ==>
      && "lat" !in r && "lon" !in r && "geo" in r
      && r["geo"] == Obj(map["location" := Str(format(o["lat"], o["lon"]).value)])
    ensures forall k | k != "lat" && k != "lon" && k != "geo" :: (k in r <==> k in o)
    ensures forall k | k != "lat" && k != "lon" && k != "geo" && k in o :: r[k] == o[k]
  {
    if "lat" in o && "lon" in o then
      match format(o["lat"], o["lon"])
      case None => o
      case Some(text) => (o - {"lat", "lon"})["geo" := Obj(map["location" := Str(text)])]
    else o
  }

  /** `enrich` of the WorkManager-based agent: `@timestamp` and `meta` as
      before (with `osType` in the generated `meta`), then the geo fold.
      A format failure is caught after `@timestamp` and `meta` were set. */
  function Enrich(obj: Event, timestamp: string, p: Platform, defaultMeta: Option<Event>, format: GeoFormat): (r: Event)
    ensures "@timestamp" in r && "meta" in r
    ensures "@timestamp" in obj ==> r["@timestamp"] == obj["@timestamp"]
    ensures "@timestamp" !in obj ==> r["@timestamp"] == Str(timestamp)
    ensures "meta" in obj ==> r["meta"] == obj["meta"]
    ensures "meta" !in obj ==> r["meta"] == Obj(Meta(p, true, defaultMeta))
    ensures forall k | !Managed(k) && k != "lat" && k != "lon" && k != "geo" :: (k in r <==> k in obj)
    ensures forall k | !Managed(k) && k != "lat" && k != "lon" && k != "geo" && k in obj :: r[k] == obj[k]
    ensures "lat" in obj && "lon" in obj && format(obj["lat"], obj["lon"]).Some? ==>
      && "lat" !in r && "lon" !in r && "geo" in r
      && r["geo"] == Obj(map["location" := Str(format(obj["lat"], obj["lon"]).value)])
    ensures !("lat" in obj && "lon" in obj && format(obj["lat"], obj["lon"]).Some?) ==>
      forall k | !Managed(k) :: (k in r <==> k in obj)
    ensures !("lat" in obj && "lon" in obj && format(obj["lat"], obj["lon"]).Some?) ==>
      forall k | !Managed(k) && k in obj :: r[k] == obj[k]
  {
    var o := StampAndMeta(obj, timestamp, Meta(p, true, defaultMeta));
    assert !Managed("lat") && !Managed("lon");
    FoldGeo(o, format)
  }

  /** Enriching twice is enriching once: the first pass leaves nothing for
      the second to add, so a re-queued event is not altered again. */
  lemma EnrichLegacyIdempotent(obj: Event, timestamp: string, p: Platform, defaultMeta: Option<Event>)
    ensures var once := EnrichLegacy(obj, timestamp, p, defaultMeta);
      EnrichLegacy(once, timestamp, p, defaultMeta) == once
  {
    var once := EnrichLegacy(obj, timestamp, p, defaultMeta);
    assert StampAndMeta(once, timestamp, Meta(p, false, defaultMeta)) == once;
  }

  lemma EnrichIdempotent(obj: Event, timestamp: string, p: Platform, defaultMeta: Option<Event>, format: GeoFormat)
    ensures var once := Enrich(obj, timestamp, p, defaultMeta, format);
      Enrich(once, timestamp, p, defaultMeta, format) == once
  {
    var once := Enrich(obj, timestamp, p, defaultMeta, format);
    var meta := Meta(p, true, defaultMeta);
    assert StampAndMeta(once, timestamp, meta) == once;
  }

  /** `addLocationToObject`: `lat` and `lon` are added together, and only
      when both are given. */
  function AddLocation(obj: Event, lat: Option<real>, lon: Option<real>): (r: Event)
    ensures lat.Some? && lon.Some? ==> "lat" in r && r["lat"] == Num(lat.value) && "lon" in r && r["lon"] == Num(lon.value)
    ensures lat.None? || lon.None? ==> r == obj
    ensures forall k | k != "lat" && k != "lon" :: (k in r <==> k in obj)
    ensures forall k | k != "lat" && k != "lon" && k in obj :: r[k] == obj[k]
  {
    if lat.Some? && lon.Some? then obj["lat" := Num(lat.value)]["lon" := Num(lon.value)] else obj
  }

  /** `enrichWithLocation`: the location listener's text, when a listener
      exists. */
  function WithListenerLocation(obj: Event, location: Option<string>): (r: Event)
    ensures location.Some? ==> "location" in r && r["location"] == Str(location.value)
    ensures location.None? ==> r == obj
    ensures forall k | k != "location" :: (k in r <==> k in obj)
    ensures forall k | k != "location" && k in obj :: r[k] == obj[k]
  {
    if location.Some? then obj["location" := Str(location.value)] else obj
  }

  /** The location steps shared by both `log` methods: the listener's
      text, then `lat`/`lon`. */
  function Located(base: Event, location: Option<string>, lat: Option<real>, lon: Option<real>): (r: Event)
    requires "lat" !in base && "lon" !in base && "location" !in base
    ensures ("lat" in r && "lon" in r) <==> lat.Some? && lon.Some?
    ensures lat.Some? && lon.Some? ==> r["lat"] == Num(lat.value) && r["lon"] == Num(lon.value)
    ensures "location" in r <==> location.Some?
    ensures forall k | k != "lat" && k != "lon" && k != "location" :: (k in r <==> k in base)
    ensures forall k | k != "lat" && k != "lon" && k != "location" && k in base :: r[k] == base[k]
  {
    AddLocation(WithListenerLocation(base, location), lat, lon)
  }

  /** The event `log(level, message, lat, lon)` builds. */
  function MessageEvent(level: string, message: string, location: Option<string>,
                        lat: Option<real>, lon: Option<real>): (r: Event)
    ensures "level" in r && "message" in r
    ensures r["level"] == Str(level) && r["message"] == Str(message)
    ensures ("lat" in r && "lon" in r) <==> lat.Some? && lon.Some?
    ensures lat.Some? && lon.Some? ==> r["lat"] == Num(lat.value) && r["lon"] == Num(lon.value)
    ensures "location" in r <==> location.Some?
  {
    Located(map["level" := Str(level), "message" := Str(message)], location, lat, lon)
  }

  /** The event `log(level, throwable, lat, lon)` builds. A throwable
      without a message leaves the key out, as `put` with null removes it. */
  function ErrorEvent(level: string, exceptionClass: string, message: Option<string>, stacktrace: string,
                      location: Option<string>, lat: Option<real>, lon: Option<real>): (r: Event)
    ensures "level" in r && "exception" in r && "stacktrace" in r
    ensures r["level"] == Str(level) && r["exception"] == Str(exceptionClass)
    ensures r["stacktrace"] == Str(stacktrace)
    ensures "message" in r <==> message.Some?
    ensures message.Some? ==> r["message"] == Str(message.value)
    ensures ("lat" in r && "lon" in r) <==> lat.Some? && lon.Some?
  {
    var base := map["level" := Str(level), "exception" := Str(exceptionClass), "stacktrace" := Str(stacktrace)];
    var full := if message.Some? then base["message" := Str(message.value)] else base;
    assert "lat" !in full && "lon" !in full && "location" !in full;
    Located(full, location, lat, lon)
  }

  /** An exception logged by the thread-based agent reaches the queue with
      exactly its own fields plus `@timestamp` and `meta`, and the fields it
      was built with unchanged. */
  lemma LoggedErrorFields(level: string, exceptionClass: string, message: Option<string>, stacktrace: string,
                          timestamp: string, p: Platform, defaultMeta: Option<Event>)
    ensures var r := EnrichLegacy(ErrorEvent(level, exceptionClass, message, stacktrace, None, None, None),
                                  timestamp, p, defaultMeta);
      && r.Keys == {"level", "exception", "stacktrace", "@timestamp", "meta"} + (if message.Some? then {"message"} else {})
      && r["exception"] == Str(exceptionClass) && r["stacktrace"] == Str(stacktrace)
      && r["meta"] == Obj(Meta(p, false, defaultMeta))
  {
    var obj := ErrorEvent(level, exceptionClass, message, stacktrace, None, None, None);
    var base := map["level" := Str(level), "exception" := Str(exceptionClass), "stacktrace" := Str(stacktrace)];
    var full := if message.Some? then base["message" := Str(message.value)] else base;
    assert obj == full;
    assert "meta" !in obj && "@timestamp" !in obj;
  }

  /** A message logged with a position reaches the queue with a `geo`
      object and without `lat`/`lon`, whenever the position formats. */
  lemma LoggedPositionBecomesGeo(level: string, message: string, location: Option<string>, lat: real, lon: real,
                                 timestamp: string, p: Platform, defaultMeta: Option<Event>, format: GeoFormat)
    requires format(Num(lat), Num(lon)).Some?
    ensures var r := Enrich(MessageEvent(level, message, location, Some(lat), Some(lon)), timestamp, p, defaultMeta, format);
      "lat" !in r && "lon" !in r && "geo" in r && r["message"] == Str(message)
  {
    var obj := MessageEvent(level, message, location, Some(lat), Some(lon));
    var o := StampAndMeta(obj, timestamp, Meta(p, true, defaultMeta));
    assert o["message"] == Str(message) by {
      assert !Managed("message");
    }
    PositionFolds(o, lat, lon, format);
  }

  /** The geo fold of an event holding a formattable position. */
  lemma PositionFolds(o: Event, lat: real, lon: real, format: GeoFormat)
    requires "lat" in o && "lon" in o && o["lat"] == Num(lat) && o["lon"] == Num(lon)
    requires format(Num(lat), Num(lon)).Some?
    ensures var r := FoldGeo(o, format);
      "lat" !in r && "lon" !in r && "geo" in r && ("message" in o ==> "message" in r && r["message"] == o["message"])
  {
  }
}

=== FILE: legacy_logsene.dfy ===
/** The thread-based agent (`com.sematext.android.Logsene`): it enriches
    events, persists them in the queue and decides, on every append, which
    delivery run to ask the scheduler for. The queue is opened on a
    background thread; until it is open, events are dropped.
 */
module LegacyLogsene {
  import opened Wrappers
  import opened ObjectQueue
  import opened Scheduling
  import opened Event

  /** The manifest as this agent reads it. */
  datatype Settings = Settings(
    appToken: string,
    typ: string,
    receiverUrl: string,
    maxOfflineMessages: int,
    minBatchSize: int,
    maxTimeTrigger: int)

  datatype Agent = Agent(settings: Settings, platform: Platform, queue: Option<Queue>, lastScheduled: int)

  /** Once open, the queue is bounded by the configured number of offline
      messages. */
  predicate Wellformed(a: Agent) {
    a.queue.Some? ==> Valid(a.queue.value) && a.queue.value.maxSize == a.settings.maxOfflineMessages
  }

  /** `config()`: the token and the type are required, the rest default. */
  function Configure(m: Manifest): (r: Result<Settings>)
    ensures r.Failure? <==> m.appToken.None? || m.typ.None?
    ensures r.Failure? ==> r == Failure(Required(m).error)
    ensures r.Success? ==> r.value.appToken == m.appToken.value && r.value.typ == m.typ.value
    ensures r.Success? ==>
      r.value.receiverUrl == (if m.receiverUrl.Some? then m.receiverUrl.value else RECEIVER_URL)
    ensures r.Success? ==>
      var max := r.value.maxOfflineMessages;
      max == (if m.maxOfflineMessages.Some? then m.maxOfflineMessages.value else DEFAULT_MAX_OFFLINE_MESSAGES)
    ensures r.Success? ==>
      r.value.minBatchSize == (if m.minBatchSize.Some? then m.minBatchSize.value else DEFAULT_MIN_BATCH_SIZE)
    ensures r.Success? ==>
      r.value.maxTimeTrigger == (if m.maxTimeTrigger.Some? then m.maxTimeTrigger.value else DEFAULT_TIME_TRIGGER)
  {
    match Required(m)
    case Failure(e) => Failure(e)
    case Success((token, typ)) =>
      Success(Settings(token, typ,
                       OrDefault(m.receiverUrl, RECEIVER_URL),
                       OrDefault(m.maxOfflineMessages, DEFAULT_MAX_OFFLINE_MESSAGES),
                       OrDefault(m.minBatchSize, DEFAULT_MIN_BATCH_SIZE),
                       OrDefault(m.maxTimeTrigger, DEFAULT_TIME_TRIGGER)))
  }

  /** `new Logsene(context)`: configuration errors are thrown; the queue is
      not open yet, and the time trigger starts counting now. */
  function Construct(m: Manifest, platform: Platform, now: int): (r: Result<Agent>)
    ensures r.Failure? <==> m.appToken.None? || m.typ.None?
    ensures r.Success? ==> Wellformed(r.value) && r.value.queue.None? && r.value.lastScheduled == now
    ensures r.Success? ==> r.value.settings == Configure(m).value && r.value.platform == platform
  {
    match Configure(m)
    case Failure(e) => Failure(e)
    case Success(s) => Success(Agent(s, platform, None, now))
  }

  /** The end of the database thread: the queue opens over the rows stored
      by earlier runs. A non-positive capacity makes the queue constructor
      throw on that thread; the model keeps the agent without a queue, as a
      JVM would, where Android ends the process. */
  function DatabaseReady(a: Agent, stored: seq<Row>): (r: Agent)
    requires Wellformed(a) && a.queue.None? && IdsIncreasing(stored)
    ensures Wellformed(r)
    ensures r.settings == a.settings && r.platform == a.platform && r.lastScheduled == a.lastScheduled
    ensures r.queue.Some? <==> a.settings.maxOfflineMessages > 0
    ensures r.queue.Some? ==> r.queue.value.rows == stored
  {
    match Open(stored, a.settings.maxOfflineMessages)
    case Failure(_) => a
    case Success(q) => a.(queue := Some(q))
  }

  /** `size >= maxOfflineMessages * 0.9`, in integers. */
  predicate NearlyFull(size: int, maxOfflineMessages: int) {
    10 * size >= 9 * maxOfflineMessages
  }

  /** The decision taken after an append, on the new size. */
  function Trigger(s: Settings, size: int, sinceLastScheduled: int): WorkRequest {
    if NearlyFull(size, s.maxOfflineMessages) then Unconstrained
    else if size >= s.minBatchSize || sinceLastScheduled > s.maxTimeTrigger then Constrained
    else NoRequest
  }

  /** The scheduling half of `addToQueue`, for an already serialised
      event: without a queue it is dropped; otherwise it is appended, and
      then exactly one of three things happens: an unconstrained run near
      capacity, a constrained run on batch size or elapsed time, or
      nothing. `lastScheduled` moves to `now` exactly when a run is
      requested. */
  function Enqueue(a: Agent, doc: string, now: int): (r: (Agent, WorkRequest))
    requires Wellformed(a)
    ensures Wellformed(r.0) && r.0.settings == a.settings && r.0.platform == a.platform
    ensures a.queue.None? ==> r.0 == a && r.1 == NoRequest
    ensures a.queue.Some? ==> r.0.queue.Some? && r.0.queue.value.rows == Add(a.queue.value, doc).rows
    ensures a.queue.Some? ==>
      var size := |r.0.queue.value.rows|;
      && (r.1 == Unconstrained <==> NearlyFull(size, a.settings.maxOfflineMessages))
      && (r.1 == Constrained <==>
            !NearlyFull(size, a.settings.maxOfflineMessages)
            && (size >= a.settings.minBatchSize || now - a.lastScheduled > a.settings.maxTimeTrigger))
    ensures r.1 == NoRequest || r.1 == Unconstrained || r.1 == Constrained
    ensures r.0.lastScheduled == (if r.1 == NoRequest then a.lastScheduled else now)
  {
    match a.queue
    case None => (a, NoRequest)
    case Some(q) =>
      var (size, checked) := Size(Add(q, doc));
      var request := Trigger(a.settings, size, now - a.lastScheduled);
      var last := if request == NoRequest then a.lastScheduled else now;
      (a.(queue := Some(checked), lastScheduled := last), request)
  }

  /** What appending the serialised event `doc` at `now` promises: without
      a queue nothing changes and nothing is asked for; otherwise the queue
      holds exactly what `add` leaves, the request is unconstrained near
      capacity, constrained on batch size or elapsed time, and none
      otherwise, and `lastScheduled` moves to `now` exactly with a request. */
  predicate Appended(a: Agent, doc: string, now: int, r: (Agent, WorkRequest))
    requires Wellformed(a)
  {
    && r.0.settings == a.settings && r.0.platform == a.platform
    && (a.queue.None? ==> r == (a, NoRequest))
    && (a.queue.Some? ==>
          var size := |Add(a.queue.value, doc).rows|;
          && r.0.queue.Some? && r.0.queue.value.rows == Add(a.queue.value, doc).rows
          && (r.1 == NoRequest || r.1 == Unconstrained || r.1 == Constrained)
          && (r.1 == Unconstrained <==> NearlyFull(size, a.settings.maxOfflineMessages))
          && (r.1 == Constrained <==>
                !NearlyFull(size, a.settings.maxOfflineMessages)
                && (size >= a.settings.minBatchSize || now - a.lastScheduled > a.settings.maxTimeTrigger))
          && r.0.lastScheduled == (if r.1 == NoRequest then a.lastScheduled else now))
  }

  /** `addToQueue(obj)`: the event is enriched and serialised, and that
      document is appended with the scheduling decision of `Appended`. */
  function AddToQueue(a: Agent, arrival: Arrival, defaultMeta: Option<Event>, serialize: Event -> string): (r: (Agent, WorkRequest))
    requires Wellformed(a)
    ensures Wellformed(r.0)
    ensures Appended(a, serialize(EnrichLegacy(arrival.obj, arrival.timestamp, a.platform, defaultMeta)), arrival.now, r)
  {
    Enqueue(a, serialize(EnrichLegacy(arrival.obj, arrival.timestamp, a.platform, defaultMeta)), arrival.now)
  }

  /** `log(level, message)`: a level/message event, enriched and queued;
      once the queue is open it ends with that event. */
  function LogMessage(a: Agent, level: string, message: string, now: int, timestamp: string,
                      defaultMeta: Option<Event>, serialize: Event -> string): (r: (Agent, WorkRequest))
    requires Wellformed(a)
    ensures Wellformed(r.0) && (r.0.queue.Some? <==> a.queue.Some?)
    ensures a.queue.Some? ==>
      var rows := r.0.queue.value.rows;
      |rows| > 0 && rows[|rows| - 1].data
        == serialize(EnrichLegacy(MessageEvent(level, message, None, None, None), timestamp, a.platform, defaultMeta))
    ensures Appended(a, serialize(EnrichLegacy(MessageEvent(level, message, None, None, None), timestamp, a.platform, defaultMeta)), now, r)
  {
    AddToQueue(a, Arrival(MessageEvent(level, message, None, None, None), now, timestamp), defaultMeta, serialize)
  }

  /** `log(level, throwable)`: the exception's class, message and stack
      trace, enriched and queued. */
  function LogError(a: Agent, level: string, exceptionClass: string, message: Option<string>, stacktrace: string,
                    now: int, timestamp: string, defaultMeta: Option<Event>, serialize: Event -> string)
    : (r: (Agent, WorkRequest))
    requires Wellformed(a)
    ensures Wellformed(r.0) && (r.0.queue.Some? <==> a.queue.Some?)
    ensures a.queue.Some? ==>
      var obj := ErrorEvent(level, exceptionClass, message, stacktrace, None, None, None);
      var rows := r.0.queue.value.rows;
      |rows| > 0 && rows[|rows| - 1].data == serialize(EnrichLegacy(obj, timestamp, a.platform, defaultMeta))
    ensures var obj := ErrorEvent(level, exceptionClass, message, stacktrace, None, None, None);
      Appended(a, serialize(EnrichLegacy(obj, timestamp, a.platform, defaultMeta)), now, r)
  {
    AddToQueue(a, Arrival(ErrorEvent(level, exceptionClass, message, stacktrace, None, None, None), now, timestamp),
               defaultMeta, serialize)
  }

  /** `flushMessageQueue`: always an unconstrained run, whatever the size
      and the clock; `lastScheduled` is not touched. Reading the size for
      the log line throws when the queue is not open yet. */
  function Flush(a: Agent): (r: Result<(Agent, WorkRequest)>)
    requires Wellformed(a)
    ensures r.Failure? <==> a.queue.None?
    ensures r.Failure? ==> r.error == NullPointer
    ensures r.Success? ==> r.value.1 == Unconstrained
    ensures r.Success? ==> Wellformed(r.value.0) && r.value.0.lastScheduled == a.lastScheduled
    ensures r.Success? ==> r.value.0.queue.Some? && r.value.0.queue.value.rows == a.queue.value.rows
    ensures r.Success? ==> r.value.0 == a.(queue := r.value.0.queue)
  {
    match a.queue
    case None => Failure(NullPointer)
    case Some(q) =>
      var (_, checked) := Size(q);
      Success((a.(queue := Some(checked)), Unconstrained))
  }

  /** `getQueueSize`. */
  function QueueSize(a: Agent): (r: Result<int>)
    requires Wellformed(a)
    ensures r.Failure? <==> a.queue.None?
    ensures r.Failure? ==> r.error == NullPointer
    ensures r.Success? ==> r.value == |a.queue.value.rows|
  {
    match a.queue
    case None => Failure(NullPointer)
    case Some(q) => Success(Size(q).0)
  }

  /** Serialised events enqueued one after the other, with the requests
      they produce. The last request reflects the final queue size. */
  function EnqueueAll(a: Agent, items: seq<Pending>): (r: (Agent, seq<WorkRequest>))
    requires Wellformed(a)
    ensures Wellformed(r.0) && r.0.settings == a.settings && r.0.platform == a.platform
    ensures (r.0.queue.Some? <==> a.queue.Some?) && |r.1| == |items|
    ensures a.queue.Some? && items != [] ==>
      (r.1[|r.1| - 1] == Unconstrained <==> NearlyFull(|r.0.queue.value.rows|, a.settings.maxOfflineMessages))
    decreases |items|
  {
    if items == [] then (a, [])
    else
      var (a1, w) := Enqueue(a, items[0].doc, items[0].now);
      var (a2, ws) := EnqueueAll(a1, items[1..]);
      (a2, [w] + ws)
  }

  /** On the queue, a run of enqueued events is a run of appends of their
      documents, whatever the clock does. */
  lemma {:induction false} EnqueueAllAppends(a: Agent, items: seq<Pending>)
    requires Wellformed(a) && a.queue.Some?
    ensures EnqueueAll(a, items).0.queue.value.rows == AddAll(a.queue.value, PendingDocs(items)).rows
    decreases |items|
  {
    if items != [] {
      var ds := PendingDocs(items);
      var a1 := Enqueue(a, items[0].doc, items[0].now).0;
      assert EnqueueAll(a, items).0 == EnqueueAll(a1, items[1..]).0;
      EnqueueAllAppends(a1, items[1..]);
      assert PendingDocs(items[1..]) == ds[1..];
      AddAllRowsOnly(a1.queue.value, Add(a.queue.value, ds[0]), ds[1..]);
    }
  }

  /** Appends depend on the rows and the capacity, not on the size cache. */
  lemma {:induction false} AddAllRowsOnly(q: Queue, q': Queue, ds: seq<string>)
    requires Valid(q) && Valid(q') && q.rows == q'.rows && q.maxSize == q'.maxSize
    ensures AddAll(q, ds).rows == AddAll(q', ds).rows
    decreases |ds|
  {
    if ds != [] {
      AddAllRowsOnly(Add(q, ds[0]), Add(q', ds[0]), ds[1..]);
    }
  }

  /** Eviction keeps the newest: the queue ends up holding the last
      `maxOfflineMessages` documents of all those ever queued, in order. */
  lemma {:induction false} EnqueueAllKeepsNewest(a: Agent, items: seq<Pending>)
    requires Wellformed(a) && a.queue.Some? && |a.queue.value.rows| <= a.settings.maxOfflineMessages
    ensures Docs(EnqueueAll(a, items).0.queue.value.rows)
         == KeepLast(Docs(a.queue.value.rows) + PendingDocs(items), a.settings.maxOfflineMessages)
  {
    EnqueueAllAppends(a, items);
    AddAllKeepsNewest(a.queue.value, PendingDocs(items));
  }

  /** Before the database thread has finished, every event is lost and no
      run is ever requested. */
  lemma {:induction false} DroppedUntilOpen(a: Agent, items: seq<Pending>)
    requires Wellformed(a) && a.queue.None?
    ensures var r := EnqueueAll(a, items);
      r.0 == a && forall i | 0 <= i < |r.1| :: r.1[i] == NoRequest
    decreases |items|
  {
    if items != [] {
      DroppedUntilOpen(a, items[1..]);
    }
  }

  /** A queue that reaches capacity always asks for an unconstrained run. */
  lemma FullQueueForcesUnconstrained(a: Agent, doc: string, now: int)
    requires Wellformed(a) && a.queue.Some?
    requires |a.queue.value.rows| + 1 >= a.settings.maxOfflineMessages
    ensures Enqueue(a, doc, now).1 == Unconstrained
  {
  }

  /** Below both thresholds, nothing is requested again until more than
      `maxTimeTrigger` has passed since the last request. */
  lemma QuietBetweenRequests(a: Agent, doc: string, now: int)
    requires Wellformed(a) && a.queue.Some?
    requires |a.queue.value.rows| + 1 < a.settings.minBatchSize
    requires 10 * (|a.queue.value.rows| + 1) < 9 * a.settings.maxOfflineMessages
    requires now - a.lastScheduled <= a.settings.maxTimeTrigger
    ensures var r := Enqueue(a, doc, now);
      r.1 == NoRequest && r.0.lastScheduled == a.lastScheduled
  {
  }

  /** A worked scenario: capacity 5, batch size 2, six
      documents A..F into an empty queue. The queue keeps B..F and the last
      append, at capacity, asks for an unconstrained run. */
  lemma SixEventsIntoFive(a: Agent, items: seq<Pending>)
    requires Wellformed(a) && a.queue.Some? && a.queue.value.rows == []
    requires a.settings.maxOfflineMessages == 5 && a.settings.minBatchSize == 2
    requires PendingDocs(items) == ["A", "B", "C", "D", "E", "F"]
    ensures var r := EnqueueAll(a, items);
      && Docs(r.0.queue.value.rows) == ["B", "C", "D", "E", "F"]
      && r.1[5] == Unconstrained
  {
    EnqueueAllKeepsNewest(a, items);
    assert Docs(a.queue.value.rows) + PendingDocs(items) == ["A", "B", "C", "D", "E", "F"];
  }
}

=== FILE: legacy_worker.dfy ===
/** The appender of the thread-based agent (`com.sematext.android.LogWorker`).

    One turn of its loop takes at most one message off the in-memory hand-off
    queue, persists it, and runs a send round when the network is up and the
    batch-size or time trigger holds. Batching and retries are those of the
    delivery engine; this variant has no reachability probe.
 */
module LegacyWorker {
  import opened Wrappers
  import opened ObjectQueue
  import opened Worker
  import Client

  /** Minimum number of queued events before a round is worth sending. */
  const MIN_BATCH_SIZE: int := 10

  /** Milliseconds after which a round runs whatever the queue size. */
  const MAX_TIME_TRIGGER: int := 60000

  /** The trigger of one loop turn, on the size after the append. */
  predicate SendDue(networkAvailable: bool, size: int, sinceLastSend: int) {
    networkAvailable && size > 0 && (size >= MIN_BATCH_SIZE || sinceLastSend > MAX_TIME_TRIGGER)
  }

  /** This variant's engine settings: the same batches and attempts, never
      a reachability probe. */
  function LegacyConfig(client: Client.Client, typ: string): (cfg: Config)
    ensures !cfg.checkUnreachableUrl && cfg.client == client && cfg.typ == typ
  {
    Config(client, typ, false)
  }

  /** One turn of `Appender.run`. `message` is what `poll` returned, `now`
      the clock when the trigger is evaluated and `finished` the clock after
      the round; `lastSend` is reset after every round, whatever its
      outcome, and only then. A round has the delivery engine's guarantees:
      rows leave only with a batch a 2xx acknowledged (`starts` holds the
      exchange each such attempt began with), the round stops at the first
      refused batch (`failedAt`), and each batch takes at most three
      exchanges. */
  method Turn(t: Transport, client: Client.Client, typ: string, q0: Queue, lastSend: int,
              message: Option<string>, networkAvailable: bool, now: int, finished: int, c0: nat)
    returns (q: Queue, lastSend': int, c: nat, ran: bool, sent: seq<seq<string>>,
             starts: seq<nat>, failedAt: Option<nat>)
    requires Valid(q0)
    ensures Valid(q) && q.maxSize == q0.maxSize
    ensures var queued := if message.Some? then Add(q0, message.value) else q0;
      && (ran <==> SendDue(networkAvailable, |queued.rows|, now - lastSend))
      && (!ran ==> q.rows == queued.rows && c == c0 && sent == [] && failedAt.None?)
      && Delivered(queued, q, sent)
    ensures Acknowledged(t, LegacyConfig(client, typ), sent, starts)
    ensures ran && failedAt.None? ==> q.rows == []
    ensures failedAt.Some? ==> ran && Refused(t, LegacyConfig(client, typ), Batch(q), failedAt.value, c)
    ensures c0 <= c <= c0 + MAX_ATTEMPTS * (|sent| + 1)
    ensures lastSend' == (if ran then finished else lastSend)
  {
    q := q0;
    if message.Some? {
      q := Add(q, message.value);
    }
    var queued := q;
    var (size, q1) := Size(q);
    q := q1;
    ran := SendDue(networkAvailable, size, now - lastSend);
    lastSend', c, sent, starts, failedAt := lastSend, c0, [], [], None;
    assert queued.rows[0..] == queued.rows;
    if ran {
      var success;
      success, q, c, sent, starts, failedAt := SendInBatches(t, LegacyConfig(client, typ), q, c0);
      lastSend' := finished;
    }
  }

  /** Without the probe, no exchange is ever classified as unreachable, so
      only I/O failures are retried. */
  lemma NoProbeRetriesOnlyIOErrors(e: Exchange)
    ensures Retries(Classify(false, e)) <==> e.response.ConnectionFailed?
  {
  }
}

=== FILE: logsene.dfy ===
/** The WorkManager-based agent (`com.sematext.logseneandroid.Logsene`): a
    process-wide instance created by `init`, which enriches events (with
    geo folding), persists them and asks for a constrained run once enough
    are queued, no more often than a minimum delay and only while active.
 */
module Logsene {
  import opened Wrappers
  import opened ObjectQueue
  import opened Scheduling
  import opened Event

  /** Events needed before an append asks for a run. */
  const MIN_BATCH_SIZE: int := 10

  /** The manifest as this agent reads it. */
  datatype Settings = Settings(
    appToken: string,
    typ: string,
    receiverUrl: string,
    maxOfflineMessages: int,
    minTimeDelay: int,
    timeInterval: int)

  datatype Agent = Agent(
    settings: Settings,
    platform: Platform,
    queue: Queue,
    lastScheduled: int,
    isActive: bool,
    /** The location listener's current text, when automatic location is on
        and the listener was created. */
    listenerLocation: Option<string>)

  predicate Wellformed(a: Agent) {
    Valid(a.queue) && a.queue.maxSize == a.settings.maxOfflineMessages
  }

  /** The static `initialized`/`self` pair. */
  datatype Registry = Uninitialized | Initialized(instance: Agent)

  predicate RegistryWellformed(reg: Registry) {
    reg.Initialized? ==> Wellformed(reg.instance)
  }

  /** `config()`. */
  function Configure(m: Manifest): (r: Result<Settings>)
    ensures r.Failure? <==> m.appToken.None? || m.typ.None?
    ensures r.Failure? ==> r == Failure(Required(m).error)
    ensures r.Success? ==> r.value.appToken == m.appToken.value && r.value.typ == m.typ.value
    ensures r.Success? ==>
      r.value.receiverUrl == (if m.receiverUrl.Some? then m.receiverUrl.value else RECEIVER_URL)
    ensures r.Success? ==>
      var max := r.value.maxOfflineMessages;
      max == (if m.maxOfflineMessages.Some? then m.maxOfflineMessages.value else DEFAULT_MAX_OFFLINE_MESSAGES)
    ensures r.Success? ==>
      r.value.minTimeDelay == (if m.minTimeDelay.Some? then m.minTimeDelay.value else DEFAULT_TIME_TRIGGER)
    ensures r.Success? ==>
      r.value.timeInterval == (if m.interval.Some? then m.interval.value else DEFAULT_TIME_INTERVAL)
  {
    match Required(m)
    case Failure(e) => Failure(e)
    case Success((token, typ)) =>
      Success(Settings(token, typ,
                       OrDefault(m.receiverUrl, RECEIVER_URL),
                       OrDefault(m.maxOfflineMessages, DEFAULT_MAX_OFFLINE_MESSAGES),
                       OrDefault(m.minTimeDelay, DEFAULT_TIME_TRIGGER),
                       OrDefault(m.interval, DEFAULT_TIME_INTERVAL)))
  }

  /** `init(context)`: a second call does nothing. A first call configures
      the agent, opens the queue over the stored rows (a non-positive
      capacity is rejected by the queue and leaves the registry empty),
      starts active, and registers the periodic worker. */
  function Init(reg: Registry, m: Manifest, platform: Platform, stored: seq<Row>, now: int)
    : (r: Result<(Registry, WorkRequest)>)
    requires RegistryWellformed(reg) && IdsIncreasing(stored)
    ensures reg.Initialized? ==> r == Success((reg, NoRequest))
    ensures reg.Uninitialized? ==>
      (r.Success? <==> m.appToken.Some? && m.typ.Some? && Configure(m).value.maxOfflineMessages > 0)
    ensures reg.Uninitialized? && (m.appToken.None? || m.typ.None?) ==> r == Failure(Required(m).error)
    ensures reg.Uninitialized? && r.Success? ==> r.value.0.Initialized?
    ensures reg.Uninitialized? && r.Success? && r.value.0.Initialized? ==>
      var a := r.value.0.instance;
      && Wellformed(a)
      && a.settings == Configure(m).value && a.platform == platform
      && a.queue.rows == stored && a.isActive && a.lastScheduled == now && a.listenerLocation.None?
      && r.value.1 == Periodic(a.settings.timeInterval)
    ensures r.Success? ==> RegistryWellformed(r.value.0)
  {
    if reg.Initialized? then Success((reg, NoRequest))
    else
      match Configure(m)
      case Failure(e) => Failure(e)
      case Success(s) =>
        match Open(stored, s.maxOfflineMessages)
        case Failure(e) => Failure(e)
        case Success(q) =>
          var a := Agent(s, platform, q, now, true, None);
          Success((Initialized(a), Periodic(s.timeInterval)))
  }

  /** `getInstance()`. */
  function GetInstance(reg: Registry): (r: Result<Agent>)
    ensures r.Success? <==> reg.Initialized?
    ensures r.Failure? ==> r.error == NullPointer
    ensures r.Success? ==> r.value == reg.instance
  {
    match reg
    case Uninitialized => Failure(NullPointer)
    case Initialized(a) => Success(a)
  }

  /** `init` is idempotent: once it succeeded, calling it again, with any
      manifest and any stored rows, changes nothing and asks for nothing. */
  lemma InitIdempotent(reg: Registry, m: Manifest, m': Manifest, platform: Platform, platform': Platform,
                       stored: seq<Row>, stored': seq<Row>, now: int, now': int)
    requires RegistryWellformed(reg) && IdsIncreasing(stored) && IdsIncreasing(stored')
    requires Init(reg, m, platform, stored, now).Success?
    ensures var first := Init(reg, m, platform, stored, now).value.0;
      Init(first, m', platform', stored', now') == Success((first, NoRequest))
      && GetInstance(first).Success?
  {
  }

  function Pause(a: Agent): (r: Agent)
    ensures !r.isActive
    ensures r.queue == a.queue && r.lastScheduled == a.lastScheduled && r.settings == a.settings
    ensures r.platform == a.platform && r.listenerLocation == a.listenerLocation
  {
    a.(isActive := false)
  }

  function Resume(a: Agent): (r: Agent)
    ensures r.isActive
    ensures r.queue == a.queue && r.lastScheduled == a.lastScheduled && r.settings == a.settings
    ensures r.platform == a.platform && r.listenerLocation == a.listenerLocation
  {
    a.(isActive := true)
  }

  /** The minimum-delay rule: the first request is always allowed. */
  predicate CanSend(lastScheduled: int, now: int, minTimeDelay: int) {
    lastScheduled == -1 || now - lastScheduled > minTimeDelay
  }

  /** The scheduling half of `addToQueue`, for an already serialised
      event: append; then a constrained run iff at least ten events are
      queued, the minimum delay has passed and the agent is active;
      `lastScheduled` moves to `now` exactly then. There is no
      near-capacity rule in this variant. */
  function Enqueue(a: Agent, doc: string, now: int): (r: (Agent, WorkRequest))
    requires Wellformed(a)
    ensures Wellformed(r.0)
    ensures r.0 == a.(queue := r.0.queue, lastScheduled := r.0.lastScheduled)
    ensures r.0.queue == Add(a.queue, doc)
    ensures r.1 == Constrained || r.1 == NoRequest
    ensures r.1 == Constrained <==>
      |r.0.queue.rows| >= MIN_BATCH_SIZE && CanSend(a.lastScheduled, now, a.settings.minTimeDelay) && a.isActive
    ensures r.0.lastScheduled == (if r.1 == Constrained then now else a.lastScheduled)
  {
    var (size, q) := Size(Add(a.queue, doc));
    if size >= MIN_BATCH_SIZE && CanSend(a.lastScheduled, now, a.settings.minTimeDelay) && a.isActive then
      (a.(queue := q, lastScheduled := now), Constrained)
    else
      (a.(queue := q), NoRequest)
  }

  /** What appending the serialised event `doc` at `now` promises: the
      queue is what `add` leaves and nothing else but `lastScheduled`
      changes; a constrained run is asked for exactly when the agent is
      active, holds a batch and the minimum delay has passed, and
      `lastScheduled` moves to `now` exactly then. */
  predicate Appended(a: Agent, doc: string, now: int, r: (Agent, WorkRequest))
    requires Wellformed(a)
  {
    && r.0 == a.(queue := Add(a.queue, doc), lastScheduled := r.0.lastScheduled)
    && (r.1 == Constrained || r.1 == NoRequest)
    && (r.1 == Constrained <==>
          a.isActive && |r.0.queue.rows| >= MIN_BATCH_SIZE && CanSend(a.lastScheduled, now, a.settings.minTimeDelay))
    && r.0.lastScheduled == (if r.1 == Constrained then now else a.lastScheduled)
  }

  /** `addToQueue(obj)`: the event is enriched (with geo folding) and
      serialised, and that document is appended with the scheduling
      decision of `Appended`. */
  function AddToQueue(a: Agent, arrival: Arrival, defaultMeta: Option<Event>, format: GeoFormat, serialize: Event -> string)
    : (r: (Agent, WorkRequest))
    requires Wellformed(a)
    ensures Wellformed(r.0)
    ensures Appended(a, serialize(Enrich(arrival.obj, arrival.timestamp, a.platform, defaultMeta, format)), arrival.now, r)
  {
    Enqueue(a, serialize(Enrich(arrival.obj, arrival.timestamp, a.platform, defaultMeta, format)), arrival.now)
  }

  /** `flushMessageQueue`: an unconstrained run, paused or not, without
      touching `lastScheduled`. */
  function Flush(a: Agent): (r: (Agent, WorkRequest))
    requires Wellformed(a)
    ensures r.1 == Unconstrained
    ensures Wellformed(r.0) && r.0.queue.rows == a.queue.rows
    ensures r.0.lastScheduled == a.lastScheduled && r.0.isActive == a.isActive
    ensures r.0 == a.(queue := r.0.queue)
  {
    (a.(queue := Size(a.queue).1), Unconstrained)
  }

  /** `log(level, message, lat, lon)`. */
  function LogMessage(a: Agent, level: string, message: string, lat: Option<real>, lon: Option<real>,
                      now: int, timestamp: string, defaultMeta: Option<Event>, format: GeoFormat, serialize: Event -> string)
    : (r: (Agent, WorkRequest))
    requires Wellformed(a)
    ensures Wellformed(r.0)
    ensures var obj := MessageEvent(level, message, a.listenerLocation, lat, lon);
      |r.0.queue.rows| > 0 && r.0.queue.rows[|r.0.queue.rows| - 1].data == serialize(Enrich(obj, timestamp, a.platform, defaultMeta, format))
    ensures var obj := MessageEvent(level, message, a.listenerLocation, lat, lon);
      Appended(a, serialize(Enrich(obj, timestamp, a.platform, defaultMeta, format)), now, r)
  {
    AddToQueue(a, Arrival(MessageEvent(level, message, a.listenerLocation, lat, lon), now, timestamp),
               defaultMeta, format, serialize)
  }

  /** `log(level, throwable, lat, lon)`: the exception's class, message and
      stack trace with the location fields, enriched and queued. */
  function LogError(a: Agent, level: string, exceptionClass: string, message: Option<string>, stacktrace: string,
                    lat: Option<real>, lon: Option<real>, now: int, timestamp: string,
                    defaultMeta: Option<Event>, format: GeoFormat, serialize: Event -> string)
    : (r: (Agent, WorkRequest))
    requires Wellformed(a)
    ensures Wellformed(r.0)
    ensures var obj := ErrorEvent(level, exceptionClass, message, stacktrace, a.listenerLocation, lat, lon);
      |r.0.queue.rows| > 0 && r.0.queue.rows[|r.0.queue.rows| - 1].data == serialize(Enrich(obj, timestamp, a.platform, defaultMeta, format))
    ensures var obj := ErrorEvent(level, exceptionClass, message, stacktrace, a.listenerLocation, lat, lon);
      Appended(a, serialize(Enrich(obj, timestamp, a.platform, defaultMeta, format)), now, r)
  {
    AddToQueue(a, Arrival(ErrorEvent(level, exceptionClass, message, stacktrace, a.listenerLocation, lat, lon), now, timestamp),
               defaultMeta, format, serialize)
  }

  /** Serialised events enqueued one after the other, with the requests
      they produce. */
  function EnqueueAll(a: Agent, items: seq<Pending>): (r: (Agent, seq<WorkRequest>))
    requires Wellformed(a)
    ensures Wellformed(r.0) && |r.1| == |items|
    ensures r.0.settings == a.settings && r.0.isActive == a.isActive && r.0.platform == a.platform
    decreases |items|
  {
    if items == [] then (a, [])
    else
      var (a1, w) := Enqueue(a, items[0].doc, items[0].now);
      var (a2, ws) := EnqueueAll(a1, items[1..]);
      (a2, [w] + ws)
  }

  /** On the queue, a run of enqueued events is a run of appends of their
      documents, whatever the clock and the activity flag. */
  lemma {:induction false} EnqueueAllAppends(a: Agent, items: seq<Pending>)
    requires Wellformed(a)
    ensures EnqueueAll(a, items).0.queue == AddAll(a.queue, PendingDocs(items))
    decreases |items|
  {
    if items != [] {
      var ds := PendingDocs(items);
      var a1 := Enqueue(a, items[0].doc, items[0].now).0;
      assert EnqueueAll(a, items).0 == EnqueueAll(a1, items[1..]).0;
      EnqueueAllAppends(a1, items[1..]);
      assert PendingDocs(items[1..]) == ds[1..];
    }
  }

  /** The queue ends up holding the last `maxOfflineMessages` documents of
      all those ever queued, in order. */
  lemma {:induction false} EnqueueAllKeepsNewest(a: Agent, items: seq<Pending>)
    requires Wellformed(a) && |a.queue.rows| <= a.settings.maxOfflineMessages
    ensures Docs(EnqueueAll(a, items).0.queue.rows)
         == KeepLast(Docs(a.queue.rows) + PendingDocs(items), a.settings.maxOfflineMessages)
  {
    EnqueueAllAppends(a, items);
    AddAllKeepsNewest(a.queue, PendingDocs(items));
  }

  /** While paused, no append asks for a run and `lastScheduled` stays put,
      however many events arrive and whatever the clock says. */
  lemma {:induction false} PausedNeverSchedules(a: Agent, items: seq<Pending>)
    requires Wellformed(a) && !a.isActive
    ensures var r := EnqueueAll(a, items);
      && r.0.lastScheduled == a.lastScheduled
      && forall i | 0 <= i < |r.1| :: r.1[i] == NoRequest
    decreases |items|
  {
    if items != [] {
      var step := Enqueue(a, items[0].doc, items[0].now);
      var rest := EnqueueAll(step.0, items[1..]);
      PausedNeverSchedules(step.0, items[1..]);
      assert EnqueueAll(a, items) == (rest.0, [step.1] + rest.1);
    }
  }

  /** Pausing does not stop a flush. */
  lemma FlushIgnoresPause(a: Agent)
    requires Wellformed(a)
    ensures Flush(Pause(a)).1 == Unconstrained && Flush(a).1 == Flush(Pause(a)).1
  {
  }

  /** After resuming, the first append over the batch size with the delay
      passed asks for a run again, also into a full queue, whose eviction
      keeps the size. */
  lemma ResumeRestoresScheduling(a: Agent, doc: string, now: int)
    requires Wellformed(a) && |a.queue.rows| >= MIN_BATCH_SIZE
    requires CanSend(a.lastScheduled, now, a.settings.minTimeDelay)
    ensures Enqueue(Resume(Pause(a)), doc, now).1 == Constrained
  {
    AddNeverShrinks(a.queue, doc);
  }

  /** Two requests are always more than `minTimeDelay` apart: right after a
      request, appends within the delay ask for nothing, however full the
      queue is. */
  lemma MinimumDelayBetweenRequests(a: Agent, first: Pending, later: seq<Pending>)
    requires Wellformed(a) && first.now != -1
    requires Enqueue(a, first.doc, first.now).1 == Constrained
    requires forall i | 0 <= i < |later| :: later[i].now - first.now <= a.settings.minTimeDelay
    ensures var a1 := Enqueue(a, first.doc, first.now).0;
      forall i | 0 <= i < |later| :: EnqueueAll(a1, later).1[i] == NoRequest
  {
    var a1 := Enqueue(a, first.doc, first.now).0;
    QuietWithinDelay(a1, later);
  }

  /** Appends whose clock is within the delay of `lastScheduled` (and that
      is not the initial -1) never ask for a run. */
  lemma {:induction false} QuietWithinDelay(a: Agent, items: seq<Pending>)
    requires Wellformed(a) && a.lastScheduled != -1
    requires forall i | 0 <= i < |items| :: items[i].now - a.lastScheduled <= a.settings.minTimeDelay
    ensures var r := EnqueueAll(a, items);
      r.0.lastScheduled == a.lastScheduled && forall i | 0 <= i < |r.1| :: r.1[i] == NoRequest
    decreases |items|
  {
    if items != [] {
      var step := Enqueue(a, items[0].doc, items[0].now);
      assert items[0].now - a.lastScheduled <= a.settings.minTimeDelay;
      assert forall i | 0 <= i < |items[1..]| :: items[1..][i] == items[i + 1];
      var rest := EnqueueAll(step.0, items[1..]);
      QuietWithinDelay(step.0, items[1..]);
      assert EnqueueAll(a, items) == (rest.0, [step.1] + rest.1);
    }
  }
}

=== FILE: queue.dfy ===
/** The persistent FIFO queue (`SqliteObjectQueue`).

    The SQLite table `objects(id INTEGER PRIMARY KEY, data TEXT)` is modelled
    as the sequence of its rows in ascending id order; `data` is the JSON text
    of one event. The process-wide size cache for this queue's database name
    is the optional count `cache`.
 */
module ObjectQueue {
  import opened Wrappers

  /** Capacity used by the constructor that takes no size. */
  const DEFAULT_MAX_SIZE: int := 5000

  datatype Row = Row(id: int, data: string)

  datatype Queue = Queue(rows: seq<Row>, maxSize: int, cache: Option<int>)

  /** Rows come back from `ORDER BY id ASC`: ids strictly increase. */
  predicate IdsIncreasing(rows: seq<Row>) {
    forall i, j | 0 <= i < j < |rows| :: rows[i].id < rows[j].id
  }

  /** The queue's invariant: ordered rows, a positive capacity, and a size
      cache that is either not yet filled or equal to the true row count. */
  predicate Valid(q: Queue) {
    && IdsIncreasing(q.rows)
    && q.maxSize > 0
    && (q.cache == None || q.cache == Some(|q.rows|))
  }

  /** The documents of `rows`, oldest first. */
  function Docs(rows: seq<Row>): (r: seq<string>)
    ensures |r| == |rows|
    ensures forall i | 0 <= i < |rows| :: r[i] == rows[i].data
  {
    seq(|rows|, i requires 0 <= i < |rows| => rows[i].data)
  }

  lemma DocsSuffix(rows: seq<Row>, k: nat)
    requires k <= |rows|
    ensures Docs(rows[k..]) == Docs(rows)[k..]
  {
  }

  lemma DocsAppend(rows: seq<Row>, row: Row)
    ensures Docs(rows + [row]) == Docs(rows) + [row.data]
  {
  }

  /** The id SQLite gives a new row of a table without AUTOINCREMENT: one
      more than the largest id in use, or 1 for an empty table. */
  function NextId(rows: seq<Row>): (id: int)
    requires IdsIncreasing(rows)
    ensures forall i | 0 <= i < |rows| :: rows[i].id < id
  {
    if rows == [] then 1 else rows[|rows| - 1].id + 1
  }

  /** `SqliteObjectQueue(context, dbName, maxSize)` over a database that
      already holds `stored`; the cache of a freshly started process is
      empty. A non-positive capacity is rejected. */
  function Open(stored: seq<Row>, maxSize: int): (r: Result<Queue>)
    requires IdsIncreasing(stored)
    ensures maxSize <= 0 <==> r.Failure?
    ensures maxSize <= 0 ==> r.error == IllegalArgument("maxSize must be greater than 0")
    ensures r.Success? ==> Valid(r.value) && r.value.rows == stored && r.value.maxSize == maxSize
  {
    if maxSize <= 0 then Failure(IllegalArgument("maxSize must be greater than 0"))
    else Success(Queue(stored, maxSize, None))
  }

  /** `SqliteObjectQueue(context, dbName)`: capacity 5000, never rejected. */
  function OpenDefault(stored: seq<Row>): (q: Queue)
    requires IdsIncreasing(stored)
    ensures Valid(q) && q.rows == stored && q.maxSize == 5000
  {
    Queue(stored, DEFAULT_MAX_SIZE, None)
  }

  /** `size()`: the cached count, filled from the table on first use.
      Returns the size and the queue with its cache filled. */
  function Size(q: Queue): (r: (int, Queue))
    requires Valid(q)
    ensures r.0 == |q.rows|
    ensures Valid(r.1) && r.1.rows == q.rows && r.1.maxSize == q.maxSize
    ensures r.1.cache == Some(|q.rows|)
  {
    match q.cache
    case None => (|q.rows|, q.(cache := Some(|q.rows|)))
    case Some(n) => (n, q)
  }

  /** `remove(n)`: `DELETE ... WHERE id IN (SELECT id ... ORDER BY id ASC
      LIMIT n)`, then the cache is lowered by the number of deleted rows.
      A negative LIMIT means "no limit" to SQLite, so it deletes every row. */
  function Remove(q: Queue, n: int): (r: Queue)
    requires Valid(q)
    ensures Valid(r) && r.maxSize == q.maxSize
    ensures n >= 0 ==> r.rows == q.rows[Min(n, |q.rows|)..]
    ensures n < 0 ==> r.rows == []
    ensures q.cache.Some? <==> r.cache.Some?
  {
    var deleted := if n < 0 then |q.rows| else Min(n, |q.rows|);
    var cache := match q.cache
      case None => None
      case Some(c) => Some(c - deleted);
    Queue(q.rows[deleted..], q.maxSize, cache)
  }

  function Min(a: int, b: int): int {
    if a <= b then a else b
  }

  /** `add(obj)`: the INSERT gives the row the next id; a filled cache is
      raised by one; then `size()` (which fills an empty cache) is compared
      with the capacity and, when it is exceeded, exactly one oldest row is
      deleted. */
  function Add(q: Queue, data: string): (r: Queue)
    requires Valid(q)
    ensures Valid(r) && r.maxSize == q.maxSize
    ensures r.cache == Some(|r.rows|)
    ensures |r.rows| > 0 && r.rows[|r.rows| - 1].data == data
    ensures forall i | 0 <= i < |q.rows| :: r.rows[|r.rows| - 1].id > q.rows[i].id
    ensures |q.rows| + 1 > q.maxSize ==> r.rows == q.rows[1..] + [r.rows[|r.rows| - 1]]
    ensures |q.rows| + 1 <= q.maxSize ==> r.rows == q.rows + [r.rows[|r.rows| - 1]]
  {
    var row := Row(NextId(q.rows), data);
    var cache := match q.cache
      case None => None
      case Some(c) => Some(c + 1);
    var inserted := Queue(q.rows + [row], q.maxSize, cache);
    var (size, checked) := Size(inserted);
    if size > q.maxSize then
      var r := Remove(checked, 1);
      assert r.rows == q.rows[1..] + [row];
      r
    else checked
  }

  /** `peek(max)`: the `max` oldest documents, oldest first; a non-positive
      `max` is rejected. The queue itself is a value and is not changed. */
  function Peek(q: Queue, max: int): (r: Result<seq<string>>)
    ensures max <= 0 <==> r.Failure?
    ensures max <= 0 ==> r.error == IllegalArgument("max must be greater than 0")
    ensures r.Success? ==> |r.value| == Min(max, |q.rows|)
    ensures r.Success? ==> r.value == Docs(q.rows)[..|r.value|]
  {
    if max <= 0 then Failure(IllegalArgument("max must be greater than 0"))
    else Success(Docs(q.rows[..Min(max, |q.rows|)]))
  }

  // ---------------------------------------------------------------------
  // Properties over sequences of operations.

  /** Appending the documents `ds` one after the other. */
  function AddAll(q: Queue, ds: seq<string>): (r: Queue)
    requires Valid(q)
    ensures Valid(r) && r.maxSize == q.maxSize
    decreases |ds|
  {
    if ds == [] then q else AddAll(Add(q, ds[0]), ds[1..])
  }

  /** FIFO order: with room for all of them, appended documents come after
      the queued ones, in the order they were appended. */
  lemma {:induction false} AddAllInOrder(q: Queue, ds: seq<string>)
    requires Valid(q)
    requires |q.rows| + |ds| <= q.maxSize
    ensures Docs(AddAll(q, ds).rows) == Docs(q.rows) + ds
    decreases |ds|
  {
    if ds != [] {
      var q1 := Add(q, ds[0]);
      DocsAppend(q.rows, q1.rows[|q1.rows| - 1]);
      AddAllInOrder(q1, ds[1..]);
      assert Docs(q.rows) + [ds[0]] + ds[1..] == Docs(q.rows) + ds;
    }
  }

  /** Peeking after appending into a queue with room returns the appended
      documents in append order. */
  lemma {:induction false} PeekReturnsAppendOrder(q: Queue, ds: seq<string>)
    requires Valid(q) && q.rows == []
    requires 0 < |ds| <= q.maxSize
    ensures Peek(AddAll(q, ds), |ds|) == Success(ds)
  {
    var r := AddAll(q, ds);
    AddAllInOrder(q, ds);
    assert Docs(r.rows) == ds;
    assert r.rows[..|ds|] == r.rows;
  }

  /** An append never shrinks the table: it evicts at most the one row
      it makes room for. */
  lemma AddNeverShrinks(q: Queue, data: string)
    requires Valid(q)
    ensures |Add(q, data).rows| >= |q.rows|
  {
  }

  /** Capacity: a queue at most full stays at most full, and one that was
      full before an append is still exactly full after it. */
  lemma AddKeepsCapacity(q: Queue, data: string)
    requires Valid(q) && |q.rows| <= q.maxSize
    ensures |Add(q, data).rows| == Min(|q.rows| + 1, q.maxSize)
  {
  }

  /** The last `m` elements of `s` (all of them when there are fewer). */
  function KeepLast(s: seq<string>, m: int): (r: seq<string>)
    requires m > 0
    ensures |r| == Min(|s|, m)
  {
    s[|s| - Min(|s|, m)..]
  }

  /** Eviction drops one row per append and no more: a queue opened over
      more rows than its capacity (the capacity was lowered since they were
      stored) keeps its size, and never comes back down to the capacity by
      appends alone. */
  lemma OverCapacityPersists(q: Queue, data: string)
    requires Valid(q) && |q.rows| > q.maxSize
    ensures |Add(q, data).rows| == |q.rows| > q.maxSize
    ensures Docs(Add(q, data).rows) == Docs(q.rows)[1..] + [data]
  {
    var r := Add(q, data);
    DocsAppend(q.rows[1..], r.rows[|r.rows| - 1]);
    DocsSuffix(q.rows, 1);
  }

  /** One append within capacity, stated on documents: the new document
      joins the tail, and the oldest one is dropped only when the queue was
      full. */
  lemma AddDocs(q: Queue, data: string)
    requires Valid(q) && |q.rows| <= q.maxSize
    ensures Docs(Add(q, data).rows) == KeepLast(Docs(q.rows) + [data], q.maxSize)
    ensures |Add(q, data).rows| <= q.maxSize
  {
    var r := Add(q, data);
    var last := r.rows[|r.rows| - 1];
    var all := Docs(q.rows) + [data];
    if |q.rows| + 1 > q.maxSize {
      assert r.rows == q.rows[1..] + [last];
      DocsAppend(q.rows[1..], last);
      DocsSuffix(q.rows, 1);
      assert Min(|all|, q.maxSize) == |all| - 1;
      assert all[1..] == Docs(q.rows)[1..] + [data];
    } else {
      assert r.rows == q.rows + [last];
      DocsAppend(q.rows, last);
      assert Min(|all|, q.maxSize) == |all|;
      assert all[0..] == all;
    }
  }

  /** Dropping at most one element from the front of a sequence of at most
      `m + 1` elements does not change its last `m` elements, whatever is
      appended afterwards. */
  lemma KeepLastAfterDrop(first: seq<string>, rest: seq<string>, m: int)
    requires m > 0 && |first| <= m + 1
    ensures KeepLast(KeepLast(first, m) + rest, m) == KeepLast(first + rest, m)
  {
    var x := |first| - Min(|first|, m);
    assert KeepLast(first, m) + rest == (first + rest)[x..];
  }

  lemma SplitFirst(s: seq<string>, ds: seq<string>)
    requires ds != []
    ensures (s + [ds[0]]) + ds[1..] == s + ds
  {
    assert ds == [ds[0]] + ds[1..];
  }

  /** Eviction keeps the newest: starting within capacity, the queue after
      any run of appends holds exactly the last `maxSize` of all documents
      ever queued (or all of them, when they fit). */
  lemma {:induction false} AddAllKeepsNewest(q: Queue, ds: seq<string>)
    requires Valid(q) && |q.rows| <= q.maxSize
    ensures Docs(AddAll(q, ds).rows) == KeepLast(Docs(q.rows) + ds, q.maxSize)
    decreases |ds|
  {
    if ds == [] {
      assert Docs(q.rows) + ds == Docs(q.rows);
    } else {
      var m, rest := q.maxSize, ds[1..];
      var q1 := Add(q, ds[0]);
      assert AddAll(q, ds) == AddAll(q1, rest);
      var first := Docs(q.rows) + [ds[0]];
      AddDocs(q, ds[0]);
      AddAllKeepsNewest(q1, rest);
      KeepLastAfterDrop(first, rest, m);
      SplitFirst(Docs(q.rows), ds);
    }
  }

  /** A worked example: capacity 5, six events A..F
      appended to an empty queue leave B..F. */
  lemma SixIntoFive(q: Queue)
    requires Valid(q) && q.rows == [] && q.maxSize == 5
    ensures Docs(AddAll(q, ["A", "B", "C", "D", "E", "F"]).rows) == ["B", "C", "D", "E", "F"]
  {
    AddAllKeepsNewest(q, ["A", "B", "C", "D", "E", "F"]);
  }

  /** A successful peek followed by removing what it returned leaves exactly
      the rows that came after them: the acknowledge step of delivery. */
  lemma PeekThenRemove(q: Queue, max: int)
    requires Valid(q) && max > 0
    ensures var batch := Peek(q, max).value;
      Docs(q.rows) == batch + Docs(Remove(q, |batch|).rows)
  {
    var batch := Peek(q, max).value;
    DocsSuffix(q.rows, |batch|);
  }
}

=== FILE: scheduling.dfy ===
/** What both `Logsene` agents read from the application manifest, and
    what they ask the work scheduler for. */
module Scheduling {
  import opened Wrappers

  const RECEIVER_URL: string := "https://logsene-receiver.sematext.com"
  const DEFAULT_MAX_OFFLINE_MESSAGES: int := 5000
  const DEFAULT_MIN_BATCH_SIZE: int := 10
  /** The default of both the time trigger (thread-based agent) and the
      minimum delay between requests (WorkManager-based agent), in ms. */
  const DEFAULT_TIME_TRIGGER: int := 60000
  /** Period of the WorkManager-based agent's periodic worker, in ms. */
  const DEFAULT_TIME_INTERVAL: int := 900000

  const MISSING_TOKEN: string := "Please provide <meta-data name=\"LogseneAppToken\" value=\"yourapptoken\">"
  const MISSING_TYPE: string := "Please provide <meta-data name=\"LogseneType\" value=\"example\">"

  /** The `meta-data` entries of the manifest; `None` when the key is absent. */
  datatype Manifest = Manifest(
    appToken: Option<string>,
    typ: Option<string>,
    receiverUrl: Option<string>,
    maxOfflineMessages: Option<int>,
    minBatchSize: Option<int>,
    maxTimeTrigger: Option<int>,
    minTimeDelay: Option<int>,
    interval: Option<int>)

  /** The two required entries, token first: a missing token is reported
      even when the type is missing too. */
  function Required(m: Manifest): (r: Result<(string, string)>)
    ensures r.Success? <==> m.appToken.Some? && m.typ.Some?
    ensures m.appToken.None? ==> r == Failure(Misconfigured(MISSING_TOKEN))
    ensures m.appToken.Some? && m.typ.None? ==> r == Failure(Misconfigured(MISSING_TYPE))
    ensures r.Success? ==> r.value == (m.appToken.value, m.typ.value)
  {
    if m.appToken.None? then Failure(Misconfigured(MISSING_TOKEN))
    else if m.typ.None? then Failure(Misconfigured(MISSING_TYPE))
    else Success((m.appToken.value, m.typ.value))
  }

  /** An optional entry with its default. */
  function OrDefault<T>(o: Option<T>, default: T): (r: T)
    ensures o.Some? ==> r == o.value
    ensures o.None? ==> r == default
  {
    match o
    case None => default
    case Some(v) => v
  }

  /** A serialised event on its way into the queue, with the elapsed-time
      clock read when it is appended. */
  datatype Pending = Pending(doc: string, now: int)

  /** The documents of a run of pending events, in order. */
  function PendingDocs(items: seq<Pending>): (ds: seq<string>)
    ensures |ds| == |items| && forall i | 0 <= i < |items| :: ds[i] == items[i].doc
  {
    seq(|items|, i requires 0 <= i < |items| => items[i].doc)
  }

  /** A request to the work scheduler. Requests are unique per tag and
      kept when one is already pending, so asking again is harmless. */
  datatype WorkRequest =
    | NoRequest
    /** A one-time worker without constraints (flush, or a nearly full queue). */
    | Unconstrained
    /** A one-time worker that waits for the configured network, idle and
        battery conditions. */
    | Constrained
    /** The WorkManager-based agent's periodic worker. */
    | Periodic(interval: int)
}

=== FILE: text.dfy ===
/** The few pieces of java.lang.String behaviour the pipeline relies on:
    `trim()`, `endsWith("/")`, and the newline framing of a bulk body.
 */
module Text {

  /** `String.trim()` strips every character whose code is at most U+0020. */
  predicate IsBlank(c: char) {
    c <= ' '
  }

  /** Leading blanks removed: the result is the longest suffix of `s` that
      does not start with a blank, and everything cut off is blank. */
  function TrimStart(s: string): (r: string)
    ensures |r| <= |s| && r == s[|s| - |r|..]
    ensures forall i | 0 <= i < |s| - |r| :: IsBlank(s[i])
    ensures r == [] || !IsBlank(r[0])
    decreases |s|
  {
    if |s| > 0 && IsBlank(s[0]) then TrimStart(s[1..]) else s
  }

  /** Trailing blanks removed: the longest prefix of `s` that does not end
      with a blank, and everything cut off is blank. */
  function TrimEnd(s: string): (r: string)
    ensures |r| <= |s| && r == s[..|r|]
    ensures forall i | |r| <= i < |s| :: IsBlank(s[i])
    ensures r == [] || !IsBlank(r[|r| - 1])
    decreases |s|
  {
    if |s| > 0 && IsBlank(s[|s| - 1]) then TrimEnd(s[..|s| - 1]) else s
  }

  /** `String.trim()`. */
  function Trim(s: string): (r: string)
    ensures exists a, b | 0 <= a <= b <= |s| :: r == s[a..b]
    ensures r == [] || (!IsBlank(r[0]) && !IsBlank(r[|r| - 1]))
  {
    var t := TrimStart(s);
    var r := TrimEnd(t);
    assert r == s[|s| - |t|..|s| - |t| + |r|];
    r
  }

  /** A string with no blank at either end, the shape `trim()` produces. */
  predicate IsTrimmed(s: string) {
    s == [] || (!IsBlank(s[0]) && !IsBlank(s[|s| - 1]))
  }

  /** Trimming a trimmed string changes nothing, so `trim()` is idempotent. */
  lemma {:induction false} TrimOfTrimmed(s: string)
    requires IsTrimmed(s)
    ensures Trim(s) == s
  {
    assert TrimStart(s) == s;
    assert TrimEnd(s) == s;
  }

  lemma TrimIdempotent(s: string)
    ensures Trim(Trim(s)) == Trim(s)
  {
    TrimOfTrimmed(Trim(s));
  }

  /** Trimming keeps blanks inside the string: the result differs from `s`
      only by blanks cut at the two ends. */
  lemma {:induction false} TrimKeepsInnerCharacters(s: string)
    ensures Trim(s) == s[|s| - |TrimStart(s)|..|s| - |TrimStart(s)| + |Trim(s)|]
    ensures forall i | 0 <= i < |s| - |TrimStart(s)| :: IsBlank(s[i])
    ensures forall i | |s| - |TrimStart(s)| + |Trim(s)| <= i < |s| :: IsBlank(s[i])
  {
    var t := TrimStart(s);
    var r := TrimEnd(t);
    var off := |s| - |t|;
    assert Trim(s) == r;
    assert t == s[off..];
    assert r == t[..|r|];
    assert r == s[off..off + |r|];
    forall i | off + |r| <= i < |s|
      ensures IsBlank(s[i])
    {
      assert s[i] == t[i - off];
    }
  }

  /** `String.endsWith("/")`. */
  predicate EndsWithSlash(s: string) {
    |s| > 0 && s[|s| - 1] == '/'
  }

  /** Each line followed by a newline, in order: the framing of a bulk body. */
  function Unlines(lines: seq<string>): (r: string)
    ensures |r| >= |lines|
  {
    if lines == [] then "" else lines[0] + "\n" + Unlines(lines[1..])
  }

  /** Position of the first newline in `s`, or `|s|` when there is none. */
  function NewlineIndex(s: string): (k: nat)
    ensures k <= |s|
    ensures forall i | 0 <= i < k :: s[i] != '\n'
    ensures k < |s| ==> s[k] == '\n'
  {
    if s == [] then 0
    else if s[0] == '\n' then 0
    else 1 + NewlineIndex(s[1..])
  }

  /** Splits a body at its newlines, the reading a receiver does: every
      newline ends one line, and unterminated trailing text is a last line. */
  function Lines(s: string): seq<string>
    decreases |s|
  {
    if s == [] then []
    else
      var k := NewlineIndex(s);
      if k == |s| then [s] else [s[..k]] + Lines(s[k + 1..])
  }

  predicate NoNewline(s: string) {
    forall i | 0 <= i < |s| :: s[i] != '\n'
  }

  lemma {:induction false} NewlineIndexOfLine(line: string, rest: string)
    requires NoNewline(line)
    ensures NewlineIndex(line + "\n" + rest) == |line|
    decreases |line|
  {
    var s := line + "\n" + rest;
    if line == [] {
      assert s[0] == '\n';
    } else {
      assert s[1..] == line[1..] + "\n" + rest;
      NewlineIndexOfLine(line[1..], rest);
    }
  }

  /** Reading a framed body back gives the lines that were framed, provided
      no line holds a newline of its own. */
  lemma {:induction false} LinesOfUnlines(lines: seq<string>)
    requires forall i | 0 <= i < |lines| :: NoNewline(lines[i])
    ensures Lines(Unlines(lines)) == lines
  {
    if lines != [] {
      var rest := Unlines(lines[1..]);
      var s := lines[0] + "\n" + rest;
      assert Unlines(lines) == s;
      NewlineIndexOfLine(lines[0], rest);
      assert s[..|lines[0]|] == lines[0];
      assert s[|lines[0]| + 1..] == rest;
      LinesOfUnlines(lines[1..]);
    }
  }

  /** The number of newlines in a framed body is the number of lines. */
  function CountNewlines(s: string): nat {
    if s == [] then 0 else (if s[0] == '\n' then 1 else 0) + CountNewlines(s[1..])
  }

  lemma {:induction false} CountNewlinesAppend(a: string, b: string)
    ensures CountNewlines(a + b) == CountNewlines(a) + CountNewlines(b)
    decreases |a|
  {
    if a == [] {
      assert a + b == b;
    } else {
      assert (a + b)[0] == a[0];
      assert (a + b)[1..] == a[1..] + b;
      CountNewlinesAppend(a[1..], b);
    }
  }

  lemma {:induction false} CountNewlinesOfLine(s: string)
    requires NoNewline(s)
    ensures CountNewlines(s) == 0
    decreases |s|
  {
    if s != [] {
      CountNewlinesOfLine(s[1..]);
    }
  }

  lemma {:induction false} CountNewlinesOfUnlines(lines: seq<string>)
    requires forall i | 0 <= i < |lines| :: NoNewline(lines[i])
    ensures CountNewlines(Unlines(lines)) == |lines|
  {
    if lines != [] {
      var rest := Unlines(lines[1..]);
      assert Unlines(lines) == lines[0] + ("\n" + rest);
      CountNewlinesAppend(lines[0], "\n" + rest);
      CountNewlinesAppend("\n", rest);
      CountNewlinesOfLine(lines[0]);
      CountNewlinesOfUnlines(lines[1..]);
    }
  }
}

=== FILE: worker.dfy ===
/** The delivery engine (`LogWorker` of the WorkManager-based agent):
    bounded retries of one bulk request, batch-by-batch draining of the
    queue, and the worker's overall result.

    The network is a `Transport`: a function from the running number of an
    exchange and the request to what the receiver (and, when enabled, the
    reachability probe) answered. Any deterministic or scripted behaviour of
    the network is one such function.
 */
module Worker {
  import opened Wrappers
  import opened ObjectQueue
  import Bulk
  import Client
  import Text

  /** Largest number of events in one bulk request. */
  const MAX_BULK_SIZE: int := 50

  /** Attempts per bulk request. */
  const MAX_ATTEMPTS: nat := 3

  /** The top-level fields of a JSON response body, each as the text
      `optString` would give for it. */
  type Json = map<string, string>

  /** What one `client.execute` produced: an IOException, or a response
      with its status code and, when the body parsed, its JSON. */
  datatype Response = ConnectionFailed | Answered(code: int, json: Option<Json>)

  /** One exchange with the receiver: whether the reachability probe
      succeeded (it is only consulted when enabled) and the response. */
  datatype Exchange = Exchange(reachable: bool, response: Response)

  datatype Request = Request(url: string, body: string)

  type Transport = (nat, Request) -> Exchange

  /** How `attemptExecute` classifies one exchange. */
  datatype Outcome = IOError | Unreachable | Non2xx(code: int) | Ok(json: Option<Json>)

  /** OkHttp's `isSuccessful()`. */
  predicate IsSuccessful(code: int) {
    200 <= code < 300
  }

  function Classify(checkUnreachableUrl: bool, e: Exchange): (o: Outcome)
    ensures o.Unreachable? <==> checkUnreachableUrl && !e.reachable
    ensures !o.Unreachable? ==> match e.response
      case ConnectionFailed => o.IOError?
      case Answered(code, json) => if IsSuccessful(code) then o == Ok(json) else o == Non2xx(code)
  {
    if checkUnreachableUrl && !e.reachable then Unreachable
    else match e.response
      case ConnectionFailed => IOError
      case Answered(code, json) => if IsSuccessful(code) then Ok(json) else Non2xx(code)
  }

  /** Only I/O failures and a failed reachability probe use up an attempt
      and retry; a non-2xx status ends the attempts at once. */
  predicate Retries(o: Outcome) {
    o.IOError? || o.Unreachable?
  }

  /** The outcome of exchange number `k` for request `req`. */
  function OutcomeAt(t: Transport, check: bool, req: Request, k: nat): Outcome {
    Classify(check, t(k, req))
  }

  /** `Boolean.parseBoolean`: "true" in any letter case. */
  predicate ParseBoolean(s: string) {
    && |s| == 4
    && (s[0] == 't' || s[0] == 'T')
    && (s[1] == 'r' || s[1] == 'R')
    && (s[2] == 'u' || s[2] == 'U')
    && (s[3] == 'e' || s[3] == 'E')
  }

  /** `optString(key, default)`. */
  function OptString(json: Json, key: string, default: string): string {
    if key in json then json[key] else default
  }

  /** A 2xx response whose body reports per-document errors. It is only
      logged: the batch still counts as delivered. */
  predicate PartialFailure(json: Option<Json>) {
    json.Some? && ParseBoolean(OptString(json.value, "errors", "false"))
  }

  /** The result of one `attemptExecute`: whether the batch was delivered,
      whether the receiver reported per-document errors, and the number of
      the next exchange. */
  datatype Attempt = Attempt(sent: bool, partialFailure: bool, next: nat)

  /** `attemptExecute(bulk, leftAttempts)`, recursive as in the source.
      Its contract is the retry policy: at most `left` exchanges; every
      exchange but the last one retried; the last one decides, and it is
      a 2xx exactly when the batch counts as sent. */
  function AttemptExecute(t: Transport, check: bool, req: Request, c: nat, left: nat): (r: Attempt)
    ensures c <= r.next <= c + left
    ensures left == 0 ==> r == Attempt(false, false, c)
    ensures forall k | c <= k < r.next - 1 :: Retries(OutcomeAt(t, check, req, k))
    ensures r.next > c ==> (r.sent <==> OutcomeAt(t, check, req, r.next - 1).Ok?)
    ensures r.next < c + left ==> r.next > c && !Retries(OutcomeAt(t, check, req, r.next - 1))
    ensures r.sent ==> r.partialFailure == PartialFailure(OutcomeAt(t, check, req, r.next - 1).json)
    ensures !r.sent ==> !r.partialFailure
    decreases left
  {
    if left == 0 then Attempt(false, false, c)
    else match OutcomeAt(t, check, req, c)
      case IOError => AttemptExecute(t, check, req, c + 1, left - 1)
      case Unreachable => AttemptExecute(t, check, req, c + 1, left - 1)
      case Non2xx(_) => Attempt(false, false, c + 1)
      case Ok(json) => Attempt(true, PartialFailure(json), c + 1)
  }

  /** One step of the retry recursion: a retried outcome leaves the rest
      to the next exchange, any other outcome decides the attempt. */
  lemma AttemptStep(t: Transport, check: bool, req: Request, c: nat, left: nat)
    requires left > 0
    ensures var o := OutcomeAt(t, check, req, c);
      AttemptExecute(t, check, req, c, left)
        == if Retries(o) then AttemptExecute(t, check, req, c + 1, left - 1)
           else Attempt(o.Ok?, o.Ok? && PartialFailure(o.json), c + 1)
  {
  }

  /** The retry recursion as a bounded loop with a decreasing counter. */
  method AttemptLoop(t: Transport, check: bool, req: Request, c0: nat, attempts: nat)
    returns (sent: bool, partialFailure: bool, next: nat)
    ensures Attempt(sent, partialFailure, next) == AttemptExecute(t, check, req, c0, attempts)
    ensures c0 <= next <= c0 + attempts
  {
    var left := attempts;
    var c := c0;
    while left > 0
      invariant c - c0 == attempts - left
      invariant AttemptExecute(t, check, req, c, left) == AttemptExecute(t, check, req, c0, attempts)
      decreases left
    {
      var outcome := OutcomeAt(t, check, req, c);
      AttemptStep(t, check, req, c, left);
      left := left - 1;
      c := c + 1;
      if !Retries(outcome) {
        sent := outcome.Ok?;
        partialFailure := sent && PartialFailure(outcome.json);
        next := c;
        return;
      }
    }
    sent, partialFailure, next := false, false, c;
  }

  /** A receiver that never answers 2xx is tried at most `MAX_ATTEMPTS`
      times per batch, and one that only fails at the I/O level is tried
      exactly that often. */
  lemma {:induction false} FailingTransport(t: Transport, check: bool, req: Request, c: nat, left: nat)
    requires forall k | c <= k < c + left :: OutcomeAt(t, check, req, k).IOError?
    ensures AttemptExecute(t, check, req, c, left) == Attempt(false, false, c + left)
    decreases left
  {
    if left > 0 {
      FailingTransport(t, check, req, c + 1, left - 1);
    }
  }

  /** A receiver that is always reachable and answers every request with
      a 2xx. */
  ghost predicate Accepting(t: Transport, check: bool) {
    forall k: nat, req: Request :: Classify(check, t(k, req)).Ok?
  }

  /** Against an accepting receiver the first exchange delivers. */
  lemma AcceptedAtOnce(t: Transport, check: bool, req: Request, c: nat, left: nat)
    requires left > 0
    ensures Accepting(t, check) ==> AttemptExecute(t, check, req, c, left).sent
  {
    if Accepting(t, check) {
      assert OutcomeAt(t, check, req, c).Ok?;
    }
  }

  /** The worker's settings from its input data. */
  datatype Config = Config(client: Client.Client, typ: string, checkUnreachableUrl: bool)

  /** The request `sendBatch` posts: one bulk entry per event, every one
      with the configured type, indexed under the app token, sent to the
      client's endpoint. */
  function BatchRequest(cfg: Config, batch: seq<string>): (r: Request)
    ensures r.url == Client.Endpoint(cfg.client)
    ensures r.body == Text.Unlines(Bulk.BodyLines(cfg.client.appToken, batch, seq(|batch|, _ => cfg.typ)))
  {
    Bulk.BuilderNeverFails(Bulk.EmptyBuilder, batch, cfg.typ);
    assert [] + batch == batch;
    assert [] + seq(|batch|, _ => cfg.typ) == seq(|batch|, _ => cfg.typ);
    var bulk := Bulk.Build(Bulk.AddAllSources(Bulk.EmptyBuilder, batch, cfg.typ)).value;
    Request(Client.Endpoint(cfg.client), Bulk.ToString(bulk, Some(cfg.client.appToken)).value)
  }

  /** The attempt for `batch` that began at exchange `start` delivered it. */
  predicate Delivers(t: Transport, cfg: Config, batch: seq<string>, start: nat) {
    AttemptExecute(t, cfg.checkUnreachableUrl, BatchRequest(cfg, batch), start, MAX_ATTEMPTS).sent
  }

  /** An accepting receiver takes every batch. */
  lemma AcceptingDelivers(t: Transport, cfg: Config, batch: seq<string>, start: nat)
    ensures Accepting(t, cfg.checkUnreachableUrl) ==> Delivers(t, cfg, batch, start)
  {
    AcceptedAtOnce(t, cfg.checkUnreachableUrl, BatchRequest(cfg, batch), start, MAX_ATTEMPTS);
  }

  /** The attempt for `batch` that began at exchange `start` failed and
      ended just before exchange `c`. */
  predicate Refused(t: Transport, cfg: Config, batch: seq<string>, start: nat, c: nat) {
    var a := AttemptExecute(t, cfg.checkUnreachableUrl, BatchRequest(cfg, batch), start, MAX_ATTEMPTS);
    !a.sent && c == a.next
  }

  /** `sendBatch(batch)`: the bulk request for the batch goes through the
      attempt loop; it reports a delivery exactly when some attempt got a
      2xx, and a failure ends where the attempt loop ended. */
  method SendBatch(t: Transport, cfg: Config, batch: seq<string>, c: nat)
    returns (sent: bool, next: nat)
    ensures sent == Delivers(t, cfg, batch, c)
    ensures !sent ==> Refused(t, cfg, batch, c, next)
    ensures c < next <= c + MAX_ATTEMPTS
  {
    var partial;
    sent, partial, next := AttemptLoop(t, cfg.checkUnreachableUrl, BatchRequest(cfg, batch), c, MAX_ATTEMPTS);
  }

  /** The batch `peek(MAX_BULK_SIZE)` returns. */
  function Batch(q: Queue): (b: seq<string>)
    ensures |b| == Min(MAX_BULK_SIZE, |q.rows|)
    ensures b == Docs(q.rows)[..|b|]
  {
    Peek(q, MAX_BULK_SIZE).value
  }

  /** The documents of the batches, in order. */
  function Flatten(batches: seq<seq<string>>): seq<string> {
    if batches == [] then [] else Flatten(batches[..|batches| - 1]) + batches[|batches| - 1]
  }

  lemma FlattenAppend(batches: seq<seq<string>>, b: seq<string>)
    ensures Flatten(batches + [b]) == Flatten(batches) + b
  {
    assert (batches + [b])[..|batches|] == batches;
  }

  /** What a run has delivered so far from the queue that was `q0`: the
      delivered documents are its oldest ones, in order, the queue holds
      exactly the rest, and every batch but the last was a full one. */
  predicate Delivered(q0: Queue, q: Queue, sent: seq<seq<string>>) {
    && |Flatten(sent)| <= |q0.rows|
    && q.rows == q0.rows[|Flatten(sent)|..]
    && Flatten(sent) == Docs(q0.rows)[..|Flatten(sent)|]
    && (forall i | 0 <= i < |sent| :: |sent[i]| <= MAX_BULK_SIZE)
    && (forall i | 0 <= i < |sent| - 1 :: |sent[i]| == MAX_BULK_SIZE)
    && (|sent| > 0 && q.rows != [] ==> |sent[|sent| - 1]| == MAX_BULK_SIZE)
  }

  /** Every delivered batch was acknowledged by a 2xx within the attempt
      that began at the recorded exchange. */
  predicate Acknowledged(t: Transport, cfg: Config, sent: seq<seq<string>>, starts: seq<nat>) {
    && |starts| == |sent|
    && forall i | 0 <= i < |sent| :: Delivers(t, cfg, sent[i], starts[i])
  }

  /** Removing an acknowledged batch keeps `Delivered`. */
  lemma AckStep(q0: Queue, q: Queue, sent: seq<seq<string>>, batch: seq<string>)
    requires Valid(q0) && Valid(q) && Delivered(q0, q, sent)
    requires |sent| > 0 ==> q.rows != []
    requires batch == Batch(q)
    ensures Delivered(q0, Remove(q, |batch|), sent + [batch])
  {
    var done := Flatten(sent);
    FlattenAppend(sent, batch);
    DocsSuffix(q0.rows, |done|);
    assert Docs(q.rows) == Docs(q0.rows)[|done|..];
    assert done + batch == Docs(q0.rows)[..|done + batch|];
    var sent' := sent + [batch];
    assert forall i | 0 <= i < |sent'| - 1 :: sent'[i] == sent[i];
  }

  lemma AcknowledgedStep(t: Transport, cfg: Config, sent: seq<seq<string>>, starts: seq<nat>, batch: seq<string>, c: nat)
    requires Acknowledged(t, cfg, sent, starts)
    requires Delivers(t, cfg, batch, c)
    ensures Acknowledged(t, cfg, sent + [batch], starts + [c])
  {
    var sent', starts' := sent + [batch], starts + [c];
    forall i | 0 <= i < |sent'|
      ensures Delivers(t, cfg, sent'[i], starts'[i])
    {
      if i < |sent| {
        assert sent'[i] == sent[i] && starts'[i] == starts[i];
      }
    }
  }

  /** `sendInBatches()`: peek a batch, send it, and only after a confirmed
      delivery remove exactly that many oldest events; stop at the first
      batch that fails. `sent` lists the delivered batches, `starts` the
      exchange each of their attempts began with, and `failedAt` the one
      the failing attempt began with, if any. */
  method SendInBatches(t: Transport, cfg: Config, q0: Queue, c0: nat)
    returns (success: bool, q: Queue, c: nat, sent: seq<seq<string>>, starts: seq<nat>, failedAt: Option<nat>)
    requires Valid(q0)
    ensures Valid(q) && q.maxSize == q0.maxSize
    ensures success <==> |sent| > 0
    ensures Delivered(q0, q, sent)
    ensures Acknowledged(t, cfg, sent, starts)
    ensures failedAt.None? ==> q.rows == []
    ensures failedAt.Some? ==> Refused(t, cfg, Batch(q), failedAt.value, c)
    ensures c0 <= c <= c0 + MAX_ATTEMPTS * (|sent| + 1)
    ensures Accepting(t, cfg.checkUnreachableUrl) ==> failedAt.None?
  {
    success, q, c, sent, starts, failedAt := false, q0, c0, [], [], None;
    var batch := Batch(q);
    var go := true;
    assert Delivered(q0, q, sent) by {
      assert q0.rows[0..] == q0.rows;
    }
    while go
      invariant Valid(q) && q.maxSize == q0.maxSize
      invariant success <==> |sent| > 0
      invariant Delivered(q0, q, sent)
      invariant Acknowledged(t, cfg, sent, starts)
      invariant go ==> batch == Batch(q) && failedAt.None? && (|sent| > 0 ==> q.rows != [])
      invariant go ==> c <= c0 + MAX_ATTEMPTS * |sent|
      invariant !go && failedAt.None? ==> q.rows == [] && c <= c0 + MAX_ATTEMPTS * |sent|
      invariant failedAt.Some? ==>
        Refused(t, cfg, Batch(q), failedAt.value, c) && c <= c0 + MAX_ATTEMPTS * (|sent| + 1)
      invariant c0 <= c
      invariant Accepting(t, cfg.checkUnreachableUrl) ==> failedAt.None?
      decreases |q.rows| + (if go then 1 else 0)
    {
      var ok, next := SendBatch(t, cfg, batch, c);
      if ok {
        success := true;
        AckStep(q0, q, sent, batch);
        AcknowledgedStep(t, cfg, sent, starts, batch, c);
        sent := sent + [batch];
        starts := starts + [c];
        q := Remove(q, |batch|);
        c := next;
        batch := Batch(q);
        go := |batch| > 0;
      } else {
        AcceptingDelivers(t, cfg, batch, c);
        failedAt := Some(c);
        c := next;
        go := false;
      }
    }
  }

  /** WorkManager's `Result.success()` / `Result.failure()`. */
  datatype WorkResult = WorkSuccess | WorkFailure

  /** `doWork()`: an empty queue is a success with nothing sent; otherwise
      the run sends in batches, with the guarantees of `SendInBatches`
      (rows leave only with an acknowledged batch; the run ends with an
      empty queue or at the first refused batch), and fails exactly when no
      batch at all was delivered. */
  method DoWork(t: Transport, cfg: Config, q0: Queue, c0: nat)
    returns (result: WorkResult, q: Queue, c: nat, sent: seq<seq<string>>, starts: seq<nat>, failedAt: Option<nat>)
    requires Valid(q0)
    ensures Valid(q) && q.maxSize == q0.maxSize
    ensures q0.rows == [] ==> result == WorkSuccess && sent == [] && q.rows == [] && c == c0 && failedAt.None?
    ensures q0.rows != [] ==> (result == WorkFailure <==> sent == [])
    ensures Delivered(q0, q, sent)
    ensures Acknowledged(t, cfg, sent, starts)
    ensures failedAt.None? ==> q.rows == []
    ensures failedAt.Some? ==> Refused(t, cfg, Batch(q), failedAt.value, c)
    ensures c0 <= c <= c0 + MAX_ATTEMPTS * (|sent| + 1)
    ensures Accepting(t, cfg.checkUnreachableUrl) ==>
      result == WorkSuccess && q.rows == [] && Flatten(sent) == Docs(q0.rows)
  {
    var (size, q1) := Size(q0);
    if size <= 0 {
      return WorkSuccess, q1, c0, [], [], None;
    }
    var success;
    success, q, c, sent, starts, failedAt := SendInBatches(t, cfg, q1, c0);
    result := if success then WorkSuccess else WorkFailure;
    if Accepting(t, cfg.checkUnreachableUrl) {
      assert Docs(q0.rows)[..|q0.rows|] == Docs(q0.rows);
    }
  }
}

=== FILE: wrappers.dfy ===
/** Failure-carrying datatypes shared by the whole model.

    The Java code signals misuse with unchecked exceptions; the model returns
    them as values so that every error path is a visible result.
 */
module Wrappers {

  datatype Option<+T> = None | Some(value: T)

  /** The exceptions the modelled code throws at its callers. */
  datatype Fault =
    | NullPointer                     // Utils.requireNonNull, or a call on a null field
    | IllegalArgument(message: string)
    | Misconfigured(message: string)  // RuntimeException from reading the manifest

  datatype Result<+R> = Success(value: R) | Failure(error: Fault)
}
